=== FILE: README.md ===
# rust-socket relay, modelled in Dafny

rust-socket is a small TCP chat relay. Each client connects to one server
and is given a numeric id. A client sends a message addressed to a peer id.
The server re-sends it to that peer under the sender's id. Whenever someone
joins or leaves, the server broadcasts the current id list.

This project models the parts of the relay that decide what bytes mean:

- **The frame codec** (`Parser`, `DecimalText`, `Bytes`). A frame is:
  - a zero-padded four-digit decimal peer id;
  - a payload chunk of at most 1024 bytes;
  - one continuation byte, `'1'` if more frames follow and `'0'` on the last.

  `Message::encode` cuts a payload into such frames. `Message::parse`
  decodes one frame, with its four error cases.
- **Reassembly** (`Shared`). `extract_message` reads frame after frame into
  a 1029-byte buffer until a frame with flag `'0'` arrives. It maps I/O
  failures to `NotReady`, `Closed` or `IOError`. `write_message` writes
  frames until the first failure. The socket is modelled as the sequence of
  outcomes its reads would return, one frame per successful read.
- **The server** (`Server`, `PeerList`, `Text`):
  - the session registry `GlobalState` as an immutable value;
  - `add_user`, `remove_user` and `get_user`;
  - the `"PEERS:"` announcement text built by `peers_to_string`;
  - routing in `handle_message`;
  - the read loop of `handler_chan`: which reply, retry or disconnect each
    extraction leads to, and how a connection's lifetime ends.
- **The client** (`Client`). `read_system_message` decodes the server's
  control messages. `ClientState` keeps a message history per peer. The
  read loop updates that state.
- **Server and client together** (`Relay`):
  - an announcement reaches a client as exactly the announced ids;
  - the server's error replies are ignored by the client.

Main properties proved:

- **Codec round trip.** For ids below 10000, every frame of
  `Encode(peer, content)` parses to the id, the matching 1024-byte chunk,
  and a flag set on every frame but the last (`Parser.EncodeParse`).
  `Parser.ParseAccepts` characterises the accepted frames exactly.
- **Reassembly inverts encoding.** For ids below 10000, reading the frames
  back, one per read, gives one message with the original id and the whole
  payload. The reads
  that follow are left for the next call (`Shared.EncodeThenExtract`).
- **Peer lists round-trip.** The ids the server writes after `"PEERS:"` are
  read back by the client as the same ids in the same order
  (`PeerList.PeerListRoundTrip`). For any text, the client keeps exactly
  the comma-separated entries that are a `usize` once trimmed, in order,
  and drops the rest (`PeerList.ParsePeerListMembers`,
  `PeerList.ParsePeerListInPlace`).
- **Ids are never reused.** They are handed out as 1, 2, 3, …, whatever
  leaves happen in between (`Server.ReplayIds`, `Server.FreshIds`).
- **Routing.** For sender ids below 10000, the sender's message reaches the
  destination reassembled under the sender's id
  (`Server.RoutedMessageArrives`). A sender id of 10000 or more is padded
  to five digits or more and read back wrongly: id 12345 arrives as id 1234
  with a '5' in front of the payload (`ParserExamples.WideIdMisread`). Id 0,
  the server's own id, is never a destination (`Server.NoPeerZero`).
- **Read loop.** Each extraction result maps to exactly one action, in both
  directions (`Server.Inbound`). The loop acts on one `extract_message`
  call after another, each on the reads the previous one left
  (`Server.Serve`, `Server.ServeResumes`). A connection that ends leaves the registry
  as it found it, except that one more id is used up
  (`Server.ConnectionLifecycle`).
- **Two behaviours of the code as written, kept as lemmas:**
  - A `WouldBlock` read in the middle of a multi-frame payload drops the
    chunks read so far. The next call then returns only the remaining frame
    as if it were a whole message (`Shared.WouldBlockLosesChunks`).
  - `format!("{:04}")` does not truncate ids of 10000 and above, so such an
    id's fifth digit is read back as payload (`ParserExamples.WideIdMisread`).
    `Parser.Parse` guarantees ids below 10000.

The unit test `test_parse_invalid_flag` (src/parser.rs:145-155) expects
`NoContent` for a frame ending in `'x'`. The code returns `NoEnding` there.
The model follows the code (`ParserExamples.ParseBadFlag`).

## Model

| member | source | states |
|---|---|---|
| Parser.Parse | src/parser.rs:21-57 | An accepted frame has at least five bytes and ends in '0' or '1'. Its id is the `usize` in the first four bytes and is below 10000. Its payload is the bytes between the id and the flag. `hasMore` holds exactly when the flag is '1'. |
| Parser.ParseAccepts | src/parser.rs:21-57 | `parse` succeeds exactly on inputs of at least five bytes whose first four bytes are a `usize` and whose last byte is '0' or '1'. |
| Parser.ParseShort | src/parser.rs:22-31 | An input shorter than four bytes gives `PeerLessThanFour` if it is UTF-8, and `PeerNotUsize` otherwise. |
| Parser.ParseBadPeer | src/parser.rs:23-35 | A four-byte peer field that is not a `usize` gives `PeerNotUsize`, whatever follows it. |
| Parser.ParseNoContent | src/parser.rs:37-40 | A valid peer field with nothing after it gives `NoContent`. |
| Parser.ParseNoEnding | src/parser.rs:41-56 | A valid peer field followed by bytes whose last byte is not '0' or '1' gives `NoEnding`. |
| Parser.EncodeInner | src/parser.rs:59-65 | The "more" result holds exactly when the content is longer than 1024 bytes. The frame length is the padded id, plus at most 1024 content bytes, plus one flag byte. |
| Parser.Encode | src/parser.rs:67-80 | There is always at least one frame, even for empty content. A payload of n bytes gives one frame if n ≤ 1024, and ⌈n/1024⌉ frames otherwise. |
| Parser.EncodeFrames | src/parser.rs:59-80 | Frame i is the padded id, chunk i and a flag. The flag is '1' exactly when more than 1024 bytes remained, which is exactly when frame i is not the last. |
| Parser.ChunksOf | src/parser.rs:67-80 | The chunks the encode loop consumes, one per frame, concatenate back to the payload. |
| Parser.FrameRoundTrip | src/parser.rs:21-65 | A frame built from an id below 10000, any chunk and a flag parses back to exactly that id, chunk and flag. |
| Parser.EncodeParse | src/parser.rs:232-272 | Every frame of an encoding under an id below 10000 parses to that id, its chunk, and a flag set on every frame but the last. |
| Parser.EncodeFrameSize | src/parser.rs:59-65 | Every frame of an id below 10000 has 5 to 1029 bytes, so it fits the reader's buffer. |
| DecimalText.Decimal | src/server.rs:58-64 | `to_string` gives at least one digit, has no leading zero unless the value is 0, and denotes the value. |
| DecimalText.Pad4 | src/parser.rs:60 | `{:04}` gives digits that denote the id. The result is at least four digits long, and exactly four when the id is below 10000. From 10000 on it is exactly the id's `to_string`, with no padding and no truncation. |
| DecimalText.ParseUsize | src/parser.rs:32 | `str::parse::<usize>` succeeds exactly on a non-empty digit string, or '+' followed by one, whose value fits 64 bits. The value is that of the digits after any '+'. |
| DecimalText.FourByteField | src/parser.rs:29-35 | A four-byte field is a `usize` exactly when it is four digits, or '+' followed by three digits. |
| DecimalText.DecimalLength | src/parser.rs:60 | The decimal form of n fits in k digits exactly when n < 10^k. |
| DecimalText.LeadingZerosValue | src/parser.rs:60 | Zero padding does not change the value a digit string denotes. |
| Bytes.AsciiIsUtf8 | src/parser.rs:24-27 | ASCII bytes are valid UTF-8, so a digit peer field passes `String::from_utf8`. |
| Text.Split | src/client.rs:163-164 | Splitting on ',' gives pieces free of ',' that join back to the text. |
| Text.SplitJoin | src/client.rs:163-164 | Splitting the ','-join of ','-free pieces gives back those pieces. |
| Text.Trim | src/client.rs:165 | The result neither starts nor ends with whitespace, and only whitespace was removed from the two ends. |
| Text.TrimUnchanged | src/client.rs:165 | Text with no whitespace at either end is unchanged by trimming. |
| PeerList.PeersToString | src/server.rs:58-64 | The text is empty exactly for no ids, and holds only digits and commas. Cut at its commas, it gives each id's `to_string` in order, so it is exactly the decimals joined by ','. |
| PeerList.JoinDigits | src/server.rs:58-64 | Joining non-empty digit strings with ',' gives text that is empty exactly for no pieces and holds only digits and commas. |
| PeerList.PeerListText | src/server.rs:38 | The announcement payload starts with "PEERS:" and the id list follows it. |
| FilterMaps.FilterMapMembers | src/client.rs:163-166 | `filter_map` keeps an id exactly when the function finds it in some piece. |
| FilterMaps.FilterMapAppend | src/client.rs:163-166 | `filter_map` over two runs of pieces is the first run's ids followed by the second's. |
| FilterMaps.FilterMapInPlace | src/client.rs:163-166 | Piece j's id, if any, sits after the ids of the earlier pieces and before those of the later ones. |
| FilterMaps.FilterMapOne | src/client.rs:163-166 | A single piece gives its own id, or nothing. |
| FilterMaps.FilterMapBound | src/client.rs:163-166 | If every id the function can find is at most a bound, so is every kept id. |
| PeerList.KeepIds | src/client.rs:163-166 | The kept ids are no more than the pieces, and each is a `usize`. |
| PeerList.EmptyPieceDropped | src/client.rs:163-166 | An empty entry gives no id. |
| PeerList.KeepIdsMembers | src/client.rs:163-166 | An id is kept exactly when some piece, trimmed, parses to it as a `usize` (`PieceId`). |
| PeerList.KeepIdsInPlace | src/client.rs:163-166 | Piece j's id, if it parses, sits between the ids of the pieces before and after it. |
| PeerList.KeepIdsFirst | src/client.rs:163-166 | The first piece's id, if it parses, comes before the ids of the rest. |
| PeerList.ParsePeerList | src/client.rs:163-166 | Empty text gives no ids. Every id read is a `usize`. |
| PeerList.ParsePeerListMembers | src/client.rs:163-166 | An id is read exactly when some ','-separated entry, trimmed, parses to it as a `usize` (`PieceId` is `ParseUsize(Trim(entry))`). |
| PeerList.EntryMembers | src/client.rs:163-166 | The same membership rule, stated over `split(',')` of the text. |
| PeerList.ParsePeerListInPlace | src/client.rs:163-166 | Entries keep their order: entry j's id, if it parses, comes after the ids of the entries before it and before those after it. |
| PeerList.DecimalKept | src/client.rs:165 | The decimal form of a `usize` survives trimming and parses back to it. |
| PeerList.KeepDecimals | src/client.rs:163-166 | The decimal forms of `usize` ids are kept as exactly those ids, in order. |
| PeerList.PeerListRoundTrip | src/client.rs:163-166 | The client reads back exactly the ids `peers_to_string` wrote, in order, for every list of `usize` ids. |
| Shared.ErrorOf | src/shared.rs:53-66 | `WouldBlock` gives `NotReady`. Reset, broken pipe and unexpected EOF give `Closed`. Every other kind gives `IOError`. Each holds in both directions. |
| Shared.ExtractFrom | src/shared.rs:28-68 | A call consumes at least one read unless the reads have run out, and then it reports `NotReady`. A returned message never has `has_more` set. |
| Shared.Extract | src/shared.rs:25-69 | One call consumes a non-empty prefix of the reads and leaves the rest. No reads gives `NotReady`. A returned message has `has_more` false. |
| Shared.ExtractSkipsContinuations | src/shared.rs:37-47 | Continuation frames are consumed one after another, and their payloads are appended in order. |
| Shared.PayloadsSnoc | src/shared.rs:39 | Appending one frame's payload extends the gathered payload at its end. |
| Shared.ExtractEnds | src/shared.rs:28-68 | The first read that is not a continuation frame ends the call and is consumed. A zero-length read gives `Closed`. An I/O error gives its mapped error. A bad frame gives `InvalidMessage` with its parse error. A last frame gives every gathered payload, in order, under the last frame's id. |
| Shared.FramesThenExtractFrom | src/shared.rs:37-46 | Frames carrying chunks c0..cn, flagged continued on all but the last, yield one message holding c0 + … + cn and consume exactly those reads. |
| Shared.EncodedFrameSteps | src/shared.rs:35 | Reads that deliver an encoding, one frame per read, parse as its chunks, flagged on all but the last. |
| Shared.EncodeThenExtract | src/shared.rs:25-69 | Reading back the frames of `encode(peer, content)` under an id below 10000 yields exactly `Message(peer, content, false)`. The later reads are left unconsumed. |
| Shared.ExtractFromDrop | src/shared.rs:28-68 | A call starting at read i never looks at the reads before it. |
| Shared.StepsDrop | src/shared.rs:35 | The steps of the reads from k on are the steps from k on. |
| Shared.ExtractAt | src/shared.rs:25-69 | `extract_message` on the reads an earlier call left is the same call started at the first read left. |
| Shared.EncodedReadsFit | src/shared.rs:26 | The frames of an encoding under an id below 10000 fit the 1029-byte buffer. |
| Shared.WouldBlockLosesChunks | src/shared.rs:27-55 | A `WouldBlock` between two frames of one payload gives `NotReady` and drops the first chunk. The next call returns only the second chunk as a whole message. |
| Shared.ContinuationThenFailure | src/shared.rs:37-66 | A continuation frame followed by a failed read ends the call with the mapped error. Only the read after the failure is left. |
| Shared.LastFrameAlone | src/shared.rs:37-45 | A single frame flagged '0' is a whole message on its own. |
| Shared.TwoFrames | src/parser.rs:247-272 | A payload of 1025 to 2048 bytes takes two frames: the first 1024 bytes flagged '1', then the rest flagged '0'. |
| Shared.WriteMessage | src/shared.rs:8-15 | Frames are written in order, as a prefix of the input. A failure happens exactly when some write fails. It stops at the first failing write, after only successful writes. With no failure, every frame is written. |
| Server.NewRegistry | src/server.rs:23-28 | A new registry has no users, and its next id is 1. |
| Server.GetUser | src/server.rs:54-57 | A lookup finds a channel exactly when the id is registered, and then finds that id's channel. |
| Server.AnnouncementFrames | src/server.rs:38 | The broadcast frames are `encode(0, "PEERS:" + peers_to_string(listed))`: each frame parses as a message from id 0 with the next 1024-byte piece of that text, and only the last one ends the message. `Relay.AnnouncementArrives` reads them back as that text. |
| Server.Announce | src/server.rs:34-39 | The broadcast lists the ids in map order and has one recipient per listed id: recipient i is the channel of listed id i. Every registered channel receives it, and only registered channels do. |
| Server.Register | src/server.rs:30-33 | The new id maps to the sender and the next id advances by one. Every other lookup is unchanged. The invariant is kept, and the new id was not registered before. |
| Server.Deregister | src/server.rs:44-45 | The id is no longer found and every other lookup is unchanged. Removing an unregistered id changes nothing. The invariant is kept. |
| Server.AddUser | src/server.rs:29-42 | The new id is the next index and, under the invariant, at least 1 and never registered before. The sender is found under it, other lookups are unchanged, and the next index advances by one. The announcement lists the ids in map order, the new one included, and goes to each listed id's channel, so every registered channel receives it. |
| Server.RemoveUser | src/server.rs:43-53 | The id is no longer found and other lookups are unchanged. The announcement lists the remaining ids in map order, omits the removed id, and goes to each remaining channel. |
| Server.ReplayIds | src/server.rs:29-53 | Over any sequence of joins and leaves, ids are handed out consecutively from the next index. None was registered before. The invariant is kept. |
| Server.FreshIds | src/server.rs:23-33 | From a new registry the ids handed out are 1, 2, 3, …, and 0 is never registered. |
| Server.RegisterThenDeregister | src/server.rs:89-181 | Registering a connection and then removing it restores the user map, with one id used up. |
| Server.HandleMessage | src/server.rs:190-211 | `PeerNotFound` happens exactly when the destination is unregistered. Delivery happens exactly when the destination is registered and its channel is open. The frames re-encode the payload under the sender's id. A failed send hands back those frames. |
| Server.NoPeerZero | src/server.rs:197-201 | A message addressed to id 0 is always `PeerNotFound`. |
| Server.RoutedMessageArrives | src/server.rs:204-206 | For a sender id below 10000, a routed message read back by the receiver is the original payload under the sender's id. |
| Server.Inbound | src/server.rs:96-142 | Each of these holds in both directions: an I/O error or closure ends the loop; `NotReady` retries; a routed message is delivered; a parse error replies "Invalid message"; an unknown peer replies "Peer not found"; a dead channel replies "Failed to send message". A delivery is exactly the one `handle_message` queues: the destination's channel and the payload re-encoded under the sender's id. |
| Server.ServeFrom | src/server.rs:95-143 | From step i, the first action answers the `extract_message` call starting at i. Only the last action can end the connection. A loop that does not end it consumes every step, and each action consumes at least one step. |
| Server.PrependAction | src/server.rs:95-143 | An action that does not disconnect, put before a run, keeps "only the last action disconnects" and does not change whether the run disconnects. |
| Server.Serve | src/server.rs:95-143 | With any reads, the first action answers `extract_message` on them; with none there is no action. Only the last action can end the connection. A loop that does not end it consumed every read. When the first action ends it, exactly the reads of that first `extract_message` call are consumed. Each action consumes at least one read. |
| Server.ServeResumes | src/server.rs:95-143 | After a pass that does not disconnect, the loop continues exactly as a fresh loop over the reads that call left, and the consumed counts add up. With `Serve`'s clause for a first action that disconnects, this fixes `consumed` as the index just after the read that ended the loop. |
| Server.ServeFromDrop | src/server.rs:95-143 | The loop from step i never looks at the steps before it. |
| Server.Connect | src/server.rs:86-181 | The connection gets the next id, and its actions are the read loop under the registry with it added. The next index advances by one and other lookups are unchanged. It is registered exactly while its loop has not disconnected. There are two announcements exactly when it disconnected. The first is `add_user`'s broadcast: it lists the join order and goes to the channel of each listed id, the new one included. The second is `remove_user`'s broadcast: it lists the leave order without the connection's id and goes to the channel each remaining id had before. |
| Server.ConnectionLifecycle | src/server.rs:86-183 | A connection that disconnected leaves the user map as it found it, after two announcements. One still open is registered under its id, after one announcement. Either way one id is used up and the invariant holds. |
| Client.ReadSystemMessage | src/client.rs:156-172 | A message succeeds exactly when it comes from id 0 and starts with "PEERS:". Every other sender is rejected. The ids are the text after "PEERS:" split on ',', each entry trimmed and kept when it is a `usize`, in order (see `PeerList.ParsePeerListMembers`). Every id read is a `usize`, and "PEERS:" alone gives no ids. |
| Client.ReadAnnouncement | src/client.rs:156-172 | The server's announcement of any `usize` ids decodes to exactly those ids, in order. |
| Client.NewHistories | src/client.rs:20-24 | A new state knows no peer, so every peer's history reads as empty. |
| Client.GetMessages | src/client.rs:38-41 | An unknown peer has an empty history. A known peer's history is its stored one. |
| Client.AddMessage | src/client.rs:33-36 | The message goes at the end of that peer's history, which is created if needed. Every other history is unchanged. |
| Client.SetPeers | src/client.rs:26-31 | Every listed peer gets a history, empty if new. Existing histories are neither removed nor changed. |
| Client.SetPeersKeepsMessages | src/client.rs:26-31 | A peer list never changes what any peer's history reads as. |
| Client.Receive | src/client.rs:66-84 | A "PEERS:" message from id 0 records its parsed ids with `set_peers`; every other extraction leaves the state exactly as it was. Either way no history changes and no peer is forgotten. |
| Client.ReceiveAnnouncement | src/client.rs:68-73 | After an announcement the client knows exactly the announced ids plus those it knew. |
| Relay.AnnouncementArrives | src/server.rs:38-39 | An announcement's frames reach a client as one message from id 0 that decodes to the announced ids, in order. |
| Relay.JoinAnnouncementKnown | src/server.rs:29-42 | After a join, the announcement lists the ids in map order, each a `usize`. A client receiving it knows every registered id. |
| Relay.LeaveAnnouncementLists | src/server.rs:43-53 | After a leave, a client decodes the announcement to exactly the remaining ids. |
| Relay.ControlTextArrives | src/server.rs:107-108 | A reply sent under id 0 arrives as one message from id 0 holding the reply text. |
| Relay.ErrorRepliesIgnored | src/client.rs:156-172 | The server's three error replies are not peer lists. The client rejects them as control messages, and they leave its state unchanged. |
| ParserExamples.EncodeEmpty | src/parser.rs:218-230 | Empty content under id 999 is one frame, "0999" followed by '0'. |
| ParserExamples.EncodeSimple | src/parser.rs:170-179 | "Hello, World!" under id 42 is the single frame "0042Hello, World!0". |
| ParserExamples.EncodeSizes | src/parser.rs:181-216 | 1024 bytes fit exactly one frame: "0001", the 1024 bytes, and '0'. 2000 bytes take a frame of 1024 flagged '1', then one of 976 flagged '0'. |
| ParserExamples.ParseSimple | src/parser.rs:87-98 | "0042Hello!0" parses to id 42, "Hello!", no more. |
| ParserExamples.ParseWithMoreFlag | src/parser.rs:100-111 | "0123data1" parses to id 123, "data", more to come. |
| ParserExamples.ParseBinary | src/parser.rs:157-168 | Binary payload bytes pass through unchanged. |
| ParserExamples.ParseFailures | src/parser.rs:113-143 | "abcd…" gives `PeerNotUsize`. "12" gives `PeerLessThanFour`. "0042" gives `NoContent`. A non-UTF-8 short input gives `PeerNotUsize`. |
| ParserExamples.ParseBadFlag | src/parser.rs:41-56 | A frame ending in 'x' gives `NoEnding`. |
| ParserExamples.ParsePlusSign | src/parser.rs:32 | The id field "+042" is accepted as 42. |
| ParserExamples.Pad4Examples | src/parser.rs:60 | 42 pads to "0042" and 999 to "0999". 12345 stays "12345". |
| ParserExamples.WideIdMisread | src/parser.rs:60 | Id 12345 is encoded with five digits and read back as id 1234 with payload "5hi". |

## Left out

- TCP sockets, the listener, threads, mutexes and `mpsc` channels. A
  channel is an opaque `ChanId`. A closed receiver is the parameter
  `closed`. A socket is the sequence of its read outcomes.
- `broadcast_message` (src/server.rs:213-219) and the writer thread of
  `handler_chan` (src/server.rs:145-175). These are scheduling of sends that the model
  represents as `Announcement` and `Delivery` values. Send failures there
  are only logged.
- The UI, stdin handling and logging of the client, and `main.rs`. They do
  not affect the relayed bytes.
- HashMap iteration order. It is the parameter `order`, constrained to list
  each key once.
- Shared.Extract: the model assumes each successful read returns exactly
  one whole frame. TCP may split or merge frames, and the code does not
  handle that. When the modelled reads run out, the socket is taken to
  report `WouldBlock`.
- Server.Register: `next_index += 1` is unbounded here. In Rust it would
  overflow at `usize::MAX`, which no real run of joins reaches.
- Server.Serve: the registry is held fixed while one connection's read loop
  runs. Concurrent joins and leaves of other connections are not
  interleaved.
- Server.Inbound: the loop `for msg in messages` over one extracted
  `Message` is modelled as handling that one message.
- Client.ReadSystemMessage: the text after "PEERS:" is required to be
  ASCII. `String::from_utf8_lossy` replacement and Unicode whitespace in
  `trim` are not modelled. The "PEERS:" prefix test on raw bytes is exact,
  because lossy decoding keeps an ASCII prefix unchanged. The server only
  ever sends ASCII there.
- The client's write thread (src/client.rs:88-110) reads a peer id and a
  line from stdin and calls `encode` and `write_message`. Those two are
  modelled; the stdin parsing is left out as I/O.

=== FILE: bytes.dfy ===
/**
 Bytes as the relay sees them on the wire: octets, ASCII text, and the UTF-8
 well-formedness test that `String::from_utf8` applies to the peer field.
 */
module Bytes {

  /** One octet (Rust `u8`). */
  type byte = x: int | 0 <= x < 256

  const PLUS: byte := 43       // '+'
  const COMMA: byte := 44      // ','
  const DIGIT_ZERO: byte := 48 // '0'
  const DIGIT_ONE: byte := 49  // '1'
  const DIGIT_NINE: byte := 57 // '9'

  predicate IsAsciiByte(b: byte) {
    b < 128
  }

  predicate IsAscii(s: seq<byte>) {
    forall i :: 0 <= i < |s| ==> IsAsciiByte(s[i])
  }

  predicate IsAsciiText(s: string) {
    forall i :: 0 <= i < |s| ==> s[i] as int < 128
  }

  /** The bytes of an ASCII string literal, as `str::as_bytes` gives them. */
  function Ascii(s: string): (r: seq<byte>)
    requires IsAsciiText(s)
    ensures |r| == |s|
    ensures IsAscii(r)
    ensures forall i :: 0 <= i < |s| ==> r[i] == s[i] as int
  {
    seq(|s|, i requires 0 <= i < |s| => s[i] as int)
  }

  /** A UTF-8 continuation byte, 10xxxxxx. */
  predicate IsUtf8Continuation(b: byte) {
    0x80 <= b <= 0xBF
  }

  /**
   Well-formed UTF-8 in the sense of Table 3-7 of the Unicode Standard
   (no overlong forms, no surrogates, nothing above U+10FFFF): the byte
   sequences that `String::from_utf8` accepts.
   */
  predicate ValidUtf8(s: seq<byte>)
    decreases |s|
  {
    if |s| == 0 then true
    else if s[0] < 0x80 then ValidUtf8(s[1..])
    else if 0xC2 <= s[0] <= 0xDF then
      |s| >= 2 && IsUtf8Continuation(s[1]) && ValidUtf8(s[2..])
    else if s[0] == 0xE0 then
      |s| >= 3 && 0xA0 <= s[1] <= 0xBF && IsUtf8Continuation(s[2]) && ValidUtf8(s[3..])
    else if (0xE1 <= s[0] <= 0xEC) || (0xEE <= s[0] <= 0xEF) then
      |s| >= 3 && IsUtf8Continuation(s[1]) && IsUtf8Continuation(s[2]) && ValidUtf8(s[3..])
    else if s[0] == 0xED then
      |s| >= 3 && 0x80 <= s[1] <= 0x9F && IsUtf8Continuation(s[2]) && ValidUtf8(s[3..])
    else if s[0] == 0xF0 then
      |s| >= 4 && 0x90 <= s[1] <= 0xBF && IsUtf8Continuation(s[2]) && IsUtf8Continuation(s[3])
      && ValidUtf8(s[4..])
    else if 0xF1 <= s[0] <= 0xF3 then
      |s| >= 4 && IsUtf8Continuation(s[1]) && IsUtf8Continuation(s[2]) && IsUtf8Continuation(s[3])
      && ValidUtf8(s[4..])
    else if s[0] == 0xF4 then
      |s| >= 4 && 0x80 <= s[1] <= 0x8F && IsUtf8Continuation(s[2]) && IsUtf8Continuation(s[3])
      && ValidUtf8(s[4..])
    else false
  }

  /** ASCII text is well-formed UTF-8. */
  lemma {:induction false} AsciiIsUtf8(s: seq<byte>)
    requires IsAscii(s)
    ensures ValidUtf8(s)
    decreases |s|
  {
    if |s| > 0 {
      AsciiIsUtf8(s[1..]);
    }
  }

  /** Concatenation of a sequence of byte strings, in order. */
  function Flatten(parts: seq<seq<byte>>): (r: seq<byte>)
    decreases |parts|
  {
    if |parts| == 0 then [] else parts[0] + Flatten(parts[1..])
  }
}

=== FILE: client.dfy ===
/**
 The client's pure parts (src/client.rs): decoding the server's control
 messages, and the per-peer message histories of `ClientState`.
 */
module Client {
  import opened Bytes
  import opened DecimalText
  import opened Wrappers
  import opened Parser
  import opened Shared
  import opened PeerList

  datatype SystemMessage = Peers(ids: seq<nat>)

  datatype SystemMessageError = NotASysMsg

  predicate StartsWith(s: seq<byte>, prefix: seq<byte>) {
    |prefix| <= |s| && s[..|prefix|] == prefix
  }

  /**
   What `read_system_message` needs to read its content as ASCII text: a
   "PEERS:" message from id 0 is ASCII after the prefix. Other messages
   are rejected before their content is looked at as text.
   */
  predicate AsciiControl(m: Message) {
    m.peer == 0 && StartsWith(m.content, PEERS_PREFIX) ==> IsAscii(m.content[|PEERS_PREFIX|..])
  }

  /**
   `read_system_message`: only id 0 sends control messages, and the only
   one is "PEERS:" followed by a comma-separated id list, whose unreadable
   entries are skipped.
   */
  function ReadSystemMessage(m: Message): (r: Result<SystemMessage, SystemMessageError>)
    requires AsciiControl(m)
    ensures m.peer != 0 ==> r == Err(NotASysMsg)
    ensures r.Ok? <==> m.peer == 0 && StartsWith(m.content, PEERS_PREFIX)
    ensures r.Ok? ==> r.value.ids == ParsePeerList(m.content[|PEERS_PREFIX|..])
    ensures r.Ok? ==> forall i :: 0 <= i < |r.value.ids| ==> r.value.ids[i] <= USIZE_MAX
    ensures r.Ok? && m.content == PEERS_PREFIX ==> r.value.ids == []
  {
    if m.peer != 0 then Err(NotASysMsg)
    else if StartsWith(m.content, PEERS_PREFIX) then
      Ok(Peers(ParsePeerList(m.content[|PEERS_PREFIX|..])))
    else Err(NotASysMsg)
  }

  /**
   The client decodes the server's announcement to exactly the ids it
   lists, in the same order.
   */
  lemma ReadAnnouncement(ids: seq<nat>, more: bool)
    requires forall i :: 0 <= i < |ids| ==> ids[i] <= USIZE_MAX
    ensures AsciiControl(Message(0, PeerListText(ids), more))
    ensures ReadSystemMessage(Message(0, PeerListText(ids), more)) == Ok(Peers(ids))
  {
    var text := PeerListText(ids);
    var rest := text[|PEERS_PREFIX|..];
    assert IsAscii(rest);
    PeerListRoundTrip(ids);
  }

  /** `ClientState`: the messages kept for each known peer, oldest first. */
  type Histories = map<nat, seq<Message>>

  /** `ClientState::new`: no peers known. */
  function NewHistories(): (h: Histories)
    ensures h.Keys == {}
    ensures forall p :: GetMessages(h, p) == []
  {
    map[]
  }

  /** `ClientState::get_messages`: the peer's history, empty for an unknown peer. */
  function GetMessages(h: Histories, p: nat): (ms: seq<Message>)
    ensures p !in h ==> ms == []
    ensures p in h ==> ms == h[p]
  {
    if p in h then h[p] else []
  }

  /**
   `ClientState::add_message`: the message goes at the end of the peer's
   history, which is created if needed; every other history is unchanged.
   */
  function AddMessage(h: Histories, p: nat, m: Message): (h': Histories)
    ensures h'.Keys == h.Keys + {p}
    ensures GetMessages(h', p) == GetMessages(h, p) + [m]
    ensures forall q :: q != p ==> GetMessages(h', q) == GetMessages(h, q)
  {
    h[p := GetMessages(h, p) + [m]]
  }

  /**
   `ClientState::set_peers`: every listed peer gets a history, an empty one
   if it had none; existing histories are neither removed nor changed.
   */
  function SetPeers(h: Histories, peers: seq<nat>): (h': Histories)
    ensures h'.Keys == h.Keys + (set p | p in peers)
    ensures forall p :: p in h ==> h'[p] == h[p]
    ensures forall p :: p in h' && p !in h ==> h'[p] == []
    decreases |peers|
  {
    if |peers| == 0 then h
    else
      var p := peers[0];
      var h1 := if p in h then h else h[p := []];
      var h' := SetPeers(h1, peers[1..]);
      assert (set q | q in peers) == {p} + (set q | q in peers[1..]) by {
        forall q | q in peers && q != p
          ensures q in peers[1..]
        {
          var i :| 0 <= i < |peers| && peers[i] == q;
          assert peers[1..][i - 1] == q;
        }
      }
      h'
  }

  /** A peer list never changes what any peer's history reads as. */
  lemma SetPeersKeepsMessages(h: Histories, peers: seq<nat>, q: nat)
    ensures GetMessages(SetPeers(h, peers), q) == GetMessages(h, q)
  {
  }

  /**
   The part of the client's read loop that touches its state: a "PEERS:"
   message from id 0 records the listed peers; anything else (a chat
   message, a control reply, an error) leaves the histories alone.
   */
  function Receive(h: Histories, extracted: Result<Message, ExtractError>): (h': Histories)
    requires extracted.Ok? ==> AsciiControl(extracted.value)
    ensures extracted.Ok? && ReadSystemMessage(extracted.value).Ok?
            ==> h' == SetPeers(h, ReadSystemMessage(extracted.value).value.ids)
    ensures !(extracted.Ok? && ReadSystemMessage(extracted.value).Ok?) ==> h' == h
    ensures forall q :: GetMessages(h', q) == GetMessages(h, q)
    ensures h.Keys <= h'.Keys
  {
    if extracted.Ok? && extracted.value.peer == 0 then
      match ReadSystemMessage(extracted.value)
      case Ok(Peers(ids)) => SetPeers(h, ids)
      case Err(_) => h
    else h
  }

  /**
   A client that receives an announcement comes to know exactly the
   announced ids besides those it knew, with no history changed.
   */
  lemma ReceiveAnnouncement(h: Histories, ids: seq<nat>)
    requires forall i :: 0 <= i < |ids| ==> ids[i] <= USIZE_MAX
    ensures AsciiControl(Message(0, PeerListText(ids), false))
    ensures Receive(h, Ok(Message(0, PeerListText(ids), false))).Keys == h.Keys + (set q | q in ids)
  {
    ReadAnnouncement(ids, false);
  }
}

=== FILE: decimal.dfy ===
/**
 Decimal text for unsigned integers: the formatting side (`to_string`,
 `format!("{:04}")`) and the parsing side (`str::parse::<usize>`).
 */
module DecimalText {
  import opened Bytes
  import opened Wrappers

  /** The largest `usize` on a 64-bit target. */
  const USIZE_MAX: nat := 0xFFFF_FFFF_FFFF_FFFF

  predicate IsDigit(b: byte) {
    DIGIT_ZERO <= b <= DIGIT_NINE
  }

  predicate AllDigits(s: seq<byte>) {
    forall i :: 0 <= i < |s| ==> IsDigit(s[i])
  }

  function DigitByte(d: nat): (b: byte)
    requires d < 10
    ensures IsDigit(b)
  {
    DIGIT_ZERO + d
  }

  function Pow10(k: nat): (r: nat)
    ensures r >= 1
  {
    if k == 0 then 1 else 10 * Pow10(k - 1)
  }

  /** The number a string of decimal digits denotes (most significant first). */
  function DigitsValue(s: seq<byte>): (v: nat)
    requires AllDigits(s)
    ensures v < Pow10(|s|)
    decreases |s|
  {
    if |s| == 0 then 0
    else DigitsValue(s[..|s| - 1]) * 10 + (s[|s| - 1] - DIGIT_ZERO)
  }

  /** `n.to_string()`: the shortest decimal form of `n`. */
  function Decimal(n: nat): (s: seq<byte>)
    ensures |s| >= 1
    ensures AllDigits(s)
    ensures DigitsValue(s) == n
    ensures s[0] == DIGIT_ZERO ==> n == 0
    decreases n
  {
    if n < 10 then [DigitByte(n)]
    else
      var s := Decimal(n / 10) + [DigitByte(n % 10)];
      assert s[..|s| - 1] == Decimal(n / 10);
      s
  }

  /** The shortest decimal form of `n` fits in `k` digits exactly when `n < 10^k`. */
  lemma {:induction false} DecimalLength(n: nat, k: nat)
    requires k >= 1
    ensures |Decimal(n)| <= k <==> n < Pow10(k)
    decreases n
  {
    if n >= 10 {
      if k == 1 {
        assert Pow10(1) == 10;
      } else {
        DecimalLength(n / 10, k - 1);
        assert n / 10 < Pow10(k - 1) <==> n < 10 * Pow10(k - 1);
      }
    } else {
      assert Pow10(k) >= 10 by {
        assert Pow10(k) == 10 * Pow10(k - 1);
      }
    }
  }

  function Zeros(k: nat): (s: seq<byte>)
    ensures |s| == k
    ensures AllDigits(s)
  {
    seq(k, _ => DIGIT_ZERO)
  }

  /** Leading zeros do not change the value of a digit string. */
  lemma {:induction false} LeadingZerosValue(k: nat, s: seq<byte>)
    requires AllDigits(s)
    ensures AllDigits(Zeros(k) + s)
    ensures DigitsValue(Zeros(k) + s) == DigitsValue(s)
    decreases |s|, k
  {
    var z := Zeros(k) + s;
    if |s| == 0 {
      assert z == Zeros(k);
      if k > 0 {
        assert z[..|z| - 1] == Zeros(k - 1) + s;
        LeadingZerosValue(k - 1, s);
      }
    } else {
      assert z[..|z| - 1] == Zeros(k) + s[..|s| - 1];
      LeadingZerosValue(k, s[..|s| - 1]);
    }
  }

  /**
   `format!("{:04}", n)`: the decimal form of `n`, left-padded with '0' to
   at least four digits. It is exactly four digits only when `n < 10000`;
   wider ids are not truncated.
   */
  function Pad4(n: nat): (s: seq<byte>)
    ensures AllDigits(s)
    ensures DigitsValue(s) == n
    ensures |s| >= 4
    ensures |s| == 4 <==> n < 10000
    ensures n >= 10000 ==> s == Decimal(n)
  {
    var d := Decimal(n);
    DecimalLength(n, 4);
    assert Pow10(4) == 10000;
    if |d| < 4 then
      LeadingZerosValue(4 - |d|, d);
      Zeros(4 - |d|) + d
    else d
  }

  /**
   `str::parse::<usize>`: an optional single '+', then at least one decimal
   digit and nothing else, denoting a value that fits in a `usize`.
   */
  function ParseUsize(s: seq<byte>): (r: Option<nat>)
    ensures r.Some? <==>
              || (|s| >= 1 && AllDigits(s) && DigitsValue(s) <= USIZE_MAX)
              || (|s| >= 2 && s[0] == PLUS && AllDigits(s[1..]) && DigitsValue(s[1..]) <= USIZE_MAX)
    ensures r.Some? && s[0] != PLUS ==> r.value == DigitsValue(s)
    ensures r.Some? && s[0] == PLUS ==> r.value == DigitsValue(s[1..])
    ensures r.Some? ==> r.value <= USIZE_MAX
  {
    var digits := if |s| > 0 && s[0] == PLUS then s[1..] else s;
    if |digits| == 0 || !AllDigits(digits) then None
    else if DigitsValue(digits) > USIZE_MAX then None
    else Some(DigitsValue(digits))
  }

  /** Parsing inverts formatting for every `usize`. */
  lemma DecimalRoundTrip(n: nat)
    requires n <= USIZE_MAX
    ensures ParseUsize(Decimal(n)) == Some(n)
    ensures ParseUsize(Pad4(n)) == Some(n)
  {
  }

  /** A four-byte field is a `usize` exactly when it is four digits, or '+' and three digits. */
  lemma FourByteField(s: seq<byte>)
    requires |s| == 4
    ensures ParseUsize(s).Some? <==> AllDigits(s) || (s[0] == PLUS && AllDigits(s[1..]))
    ensures AllDigits(s) ==> ParseUsize(s) == Some(DigitsValue(s))
    ensures s[0] == PLUS && AllDigits(s[1..]) ==> ParseUsize(s) == Some(DigitsValue(s[1..]))
  {
    assert Pow10(3) == 1000;
    if s[0] == PLUS {
      assert !AllDigits(s);
      if AllDigits(s[1..]) {
        assert DigitsValue(s[1..]) < Pow10(3);
      }
    } else if AllDigits(s) {
      assert DigitsValue(s) < Pow10(4);
    }
  }
}

=== FILE: filter_map.dfy ===
/**
 `Iterator::filter_map` with a partial id parser: what the client does to
 the comma-separated entries of a peer list.
 */
module FilterMaps {
  import opened Wrappers

  /** An optional id as a list of zero or one ids. */
  function Present(o: Option<nat>): seq<nat> {
    match o
    case Some(x) => [x]
    case None => []
  }

  /**
   `filter_map` over pieces: the ids `f` finds in the pieces, in the order
   of the pieces; a piece where `f` finds none contributes nothing.
   */
  function FilterMap<T>(pieces: seq<T>, f: T -> Option<nat>): (ids: seq<nat>)
    ensures |ids| <= |pieces|
    decreases |pieces|
  {
    if |pieces| == 0 then [] else Present(f(pieces[0])) + FilterMap(pieces[1..], f)
  }

  /** An id is kept exactly when `f` finds it in some piece. */
  lemma {:induction false} FilterMapMembers<T>(pieces: seq<T>, f: T -> Option<nat>, x: nat)
    ensures x in FilterMap(pieces, f) <==> exists j :: 0 <= j < |pieces| && f(pieces[j]) == Some(x)
    decreases |pieces|
  {
    if |pieces| > 0 {
      var tail := pieces[1..];
      FilterMapMembers(tail, f, x);
      if exists j :: 1 <= j < |pieces| && f(pieces[j]) == Some(x) {
        var j :| 1 <= j < |pieces| && f(pieces[j]) == Some(x);
        assert tail[j - 1] == pieces[j];
      }
      if exists j :: 0 <= j < |tail| && f(tail[j]) == Some(x) {
        var j :| 0 <= j < |tail| && f(tail[j]) == Some(x);
        assert pieces[j + 1] == tail[j];
      }
    }
  }

  /** Keeping ids piece by piece distributes over concatenation of the pieces. */
  lemma {:induction false} FilterMapAppend<T>(a: seq<T>, b: seq<T>, f: T -> Option<nat>)
    ensures FilterMap(a + b, f) == FilterMap(a, f) + FilterMap(b, f)
    decreases |a|
  {
    if |a| == 0 {
      assert a + b == b;
    } else {
      assert (a + b)[1..] == a[1..] + b;
      FilterMapAppend(a[1..], b, f);
    }
  }

  /**
   Every piece contributes its own id, if any, in its own place: after the
   ids of the pieces before it and before those of the pieces after it.
   */
  lemma FilterMapInPlace<T>(pieces: seq<T>, f: T -> Option<nat>, j: nat)
    requires j < |pieces|
    ensures FilterMap(pieces, f) == FilterMap(pieces[..j], f) + Present(f(pieces[j])) + FilterMap(pieces[j + 1..], f)
  {
    SplitAround(pieces, j);
    FilterMapAppend(pieces[..j], [pieces[j]] + pieces[j + 1..], f);
    FilterMapAppend([pieces[j]], pieces[j + 1..], f);
    FilterMapOne(pieces[j], f);
  }

  /** A sequence is what comes before position `j`, the element at `j`, and what comes after. */
  lemma SplitAround<T>(s: seq<T>, j: nat)
    requires j < |s|
    ensures s == s[..j] + ([s[j]] + s[j + 1..])
  {
    assert s == s[..j] + s[j..];
  }

  /** A single piece contributes just its own id, if any. */
  lemma FilterMapOne<T>(piece: T, f: T -> Option<nat>)
    ensures FilterMap([piece], f) == Present(f(piece))
  {
    var one := [piece];
    assert one[1..] == [];
  }

  /** Every id `f` can find is at most `bound`, so every kept id is too. */
  lemma FilterMapBound<T>(pieces: seq<T>, f: T -> Option<nat>, bound: nat)
    requires forall p :: f(p).Some? ==> f(p).value <= bound
    ensures forall i :: 0 <= i < |FilterMap(pieces, f)| ==> FilterMap(pieces, f)[i] <= bound
  {
    var ids := FilterMap(pieces, f);
    forall i | 0 <= i < |ids|
      ensures ids[i] <= bound
    {
      FilterMapMembers(pieces, f, ids[i]);
    }
  }
}

=== FILE: parser.dfy ===
/**
 The frame codec (src/parser.rs). A frame is a four-digit zero-padded
 decimal peer id, a payload chunk of at most 1024 bytes, and one
 continuation byte, '1' when more frames of the same payload follow and
 '0' on the last one.
 */
module Parser {
  import opened Bytes
  import opened DecimalText
  import opened Wrappers

  /** The largest payload chunk one frame carries. */
  const MAX_CHUNK: nat := 1024

  /** One frame or one reassembled message: the peer id, the payload, and whether more follows. */
  datatype Message = Message(peer: nat, content: seq<byte>, hasMore: bool)

  datatype ParseError = PeerLessThanFour | PeerNotUsize | NoContent | NoEnding

  predicate IsFlag(b: byte) {
    b == DIGIT_ZERO || b == DIGIT_ONE
  }

  function Flag(more: bool): (b: byte)
    ensures IsFlag(b)
  {
    if more then DIGIT_ONE else DIGIT_ZERO
  }

  /** The bytes the peer field is read from: the first four, or all of a shorter input. */
  function PeerField(input: seq<byte>): seq<byte> {
    if |input| < 4 then input else input[..4]
  }

  /**
   `Message::parse`: decode one frame. The peer field must be UTF-8, four
   bytes long and a `usize`; at least one byte must follow it, and the last
   byte is the continuation flag, stripped from the payload.
   */
  function Parse(input: seq<byte>): (r: Result<Message, ParseError>)
    ensures r.Ok? ==> |input| >= 5 && IsFlag(input[|input| - 1])
    ensures r.Ok? ==> r.value.content == input[4..|input| - 1]
    ensures r.Ok? ==> (r.value.hasMore <==> input[|input| - 1] == DIGIT_ONE)
    ensures r.Ok? ==> r.value.peer < 10000 && ParseUsize(input[..4]) == Some(r.value.peer)
  {
    var field := PeerField(input);
    if !ValidUtf8(field) then Err(PeerNotUsize)
    else if |field| != 4 then Err(PeerLessThanFour)
    else
      match ParseUsize(field)
      case None => Err(PeerNotUsize)
      case Some(peer) =>
        FourByteField(field);
        assert peer < 10000 by {
          if AllDigits(field) { assert DigitsValue(field) < Pow10(4); }
          else { assert DigitsValue(field[1..]) < Pow10(3); }
        }
        var rest := input[4..];
        if |rest| == 0 then Err(NoContent)
        else if IsFlag(rest[|rest| - 1]) then
          Ok(Message(peer, rest[..|rest| - 1], rest[|rest| - 1] == DIGIT_ONE))
        else Err(NoEnding)
  }

  /** An input shorter than four bytes is rejected for its length, or earlier for not being UTF-8. */
  lemma ParseShort(input: seq<byte>)
    requires |input| < 4
    ensures ValidUtf8(input) ==> Parse(input) == Err(PeerLessThanFour)
    ensures !ValidUtf8(input) ==> Parse(input) == Err(PeerNotUsize)
  {
  }

  /** Four UTF-8 bytes that are four digits, or '+' and three digits. */
  lemma UsizeFieldIsUtf8(field: seq<byte>)
    requires |field| == 4 && ParseUsize(field).Some?
    ensures ValidUtf8(field)
  {
    FourByteField(field);
    if AllDigits(field) {
      AsciiIsUtf8(field);
    } else {
      assert field == [field[0]] + field[1..];
      AsciiIsUtf8(field[1..]);
    }
  }

  /** A four-byte field that is not a `usize` is rejected, whatever follows it. */
  lemma ParseBadPeer(input: seq<byte>)
    requires |input| >= 4 && ParseUsize(input[..4]).None?
    ensures Parse(input) == Err(PeerNotUsize)
  {
  }

  /** A valid peer field with nothing after it has no content. */
  lemma ParseNoContent(input: seq<byte>)
    requires |input| == 4 && ParseUsize(input).Some?
    ensures Parse(input) == Err(NoContent)
  {
    UsizeFieldIsUtf8(input);
    assert input[..4] == input;
  }

  /** A valid peer field followed by bytes that do not end in a flag has no ending. */
  lemma ParseNoEnding(input: seq<byte>)
    requires |input| >= 5 && ParseUsize(input[..4]).Some?
    requires !IsFlag(input[|input| - 1])
    ensures Parse(input) == Err(NoEnding)
  {
    UsizeFieldIsUtf8(input[..4]);
  }

  /**
   Exactly the inputs of at least five bytes whose first four are a
   `usize` and whose last is a flag are accepted.
   */
  lemma ParseAccepts(input: seq<byte>)
    ensures Parse(input).Ok? <==> |input| >= 5 && ParseUsize(input[..4]).Some? && IsFlag(input[|input| - 1])
  {
    if |input| >= 5 && ParseUsize(input[..4]).Some? {
      UsizeFieldIsUtf8(input[..4]);
    }
  }

  /** `Message::encode_inner`: one frame from the front of `content`, and whether bytes remain. */
  function EncodeInner(peer: nat, content: seq<byte>): (r: (seq<byte>, bool))
    ensures r.1 <==> |content| > MAX_CHUNK
    ensures |r.0| == |Pad4(peer)| + (if r.1 then MAX_CHUNK else |content|) + 1
  {
    var more := |content| > MAX_CHUNK;
    var chunk := if more then content[..MAX_CHUNK] else content;
    (Pad4(peer) + chunk + [Flag(more)], more)
  }

  /**
   `Message::encode`: the frames of one payload. The loop takes a frame
   from the front and drops the first 1024 bytes for as long as the last
   frame said more was to come.
   */
  function Encode(peer: nat, content: seq<byte>): (frames: seq<seq<byte>>)
    ensures |frames| >= 1
    ensures |frames| == FrameCount(|content|)
    decreases |content|
  {
    var (part, more) := EncodeInner(peer, content);
    if more then [part] + Encode(peer, content[MAX_CHUNK..]) else [part]
  }

  /** How many frames a payload of `n` bytes needs: one, or one per started 1024 bytes. */
  function FrameCount(n: nat): nat {
    if n <= MAX_CHUNK then 1 else (n + MAX_CHUNK - 1) / MAX_CHUNK
  }

  /** The `i`-th chunk of `content`: bytes `1024*i` up to `1024*(i+1)` or the end. */
  function Chunk(content: seq<byte>, i: nat): (c: seq<byte>)
    requires MAX_CHUNK * i <= |content|
    ensures |c| <= MAX_CHUNK
  {
    var lo := MAX_CHUNK * i;
    var hi := if |content| - lo > MAX_CHUNK then lo + MAX_CHUNK else |content|;
    content[lo..hi]
  }

  /** Dropping the first chunk shifts the chunk numbering down by one. */
  lemma ChunkShift(content: seq<byte>, i: nat)
    requires |content| > MAX_CHUNK && i >= 1
    requires MAX_CHUNK * (i - 1) <= |content| - MAX_CHUNK
    ensures MAX_CHUNK * i <= |content|
    ensures Chunk(content[MAX_CHUNK..], i - 1) == Chunk(content, i)
  {
    var lo := MAX_CHUNK * (i - 1);
    assert MAX_CHUNK * i == lo + MAX_CHUNK;
    var tail := content[MAX_CHUNK..];
    var hi := if |tail| - lo > MAX_CHUNK then lo + MAX_CHUNK else |tail|;
    assert Chunk(tail, i - 1) == tail[lo..hi] == content[lo + MAX_CHUNK..hi + MAX_CHUNK];
  }

  /**
   Frame `i` of `Encode(peer, content)` is the padded id, chunk `i`, and a
   flag that is '1' exactly when more than 1024 bytes remained, which is
   exactly when it is not the last frame.
   */
  lemma {:induction false} EncodeFrames(peer: nat, content: seq<byte>, i: nat)
    requires i < |Encode(peer, content)|
    ensures MAX_CHUNK * i <= |content|
    ensures Encode(peer, content)[i]
            == Pad4(peer) + Chunk(content, i) + [Flag(|content| - MAX_CHUNK * i > MAX_CHUNK)]
    ensures |content| - MAX_CHUNK * i > MAX_CHUNK <==> i < |Encode(peer, content)| - 1
    decreases |content|
  {
    var frames := Encode(peer, content);
    if |content| > MAX_CHUNK {
      var tail := content[MAX_CHUNK..];
      if i > 0 {
        EncodeFrames(peer, tail, i - 1);
        assert frames[i] == Encode(peer, tail)[i - 1];
        ChunkShift(content, i);
        assert MAX_CHUNK * i == MAX_CHUNK * (i - 1) + MAX_CHUNK;
      }
    } else {
      assert Chunk(content, 0) == content;
    }
  }

  /**
   The payload cut at every 1024th byte, the way `encode` consumes it: one
   chunk for a payload of at most 1024 bytes (even an empty one). The
   chunks, concatenated in order, are the payload again.
   */
  function ChunksOf(content: seq<byte>): (cs: seq<seq<byte>>)
    ensures |cs| == FrameCount(|content|)
    ensures Flatten(cs) == content
    ensures forall i :: 0 <= i < |cs| ==> MAX_CHUNK * i <= |content| && cs[i] == Chunk(content, i)
    decreases |content|
  {
    if |content| <= MAX_CHUNK then
      assert Chunk(content, 0) == content;
      [content]
    else
      var tail := content[MAX_CHUNK..];
      var rest := ChunksOf(tail);
      var cs := [content[..MAX_CHUNK]] + rest;
      assert Flatten(cs) == content[..MAX_CHUNK] + Flatten(rest);
      forall i | 1 <= i < |cs|
        ensures MAX_CHUNK * i <= |content| && cs[i] == Chunk(content, i)
      {
        assert cs[i] == rest[i - 1] == Chunk(tail, i - 1);
        ChunkShift(content, i);
      }
      cs
  }

  /** A frame built from a four-digit id, any chunk and a flag parses back to exactly those parts. */
  lemma FrameRoundTrip(peer: nat, chunk: seq<byte>, more: bool)
    requires peer < 10000
    ensures Parse(Pad4(peer) + chunk + [Flag(more)]) == Ok(Message(peer, chunk, more))
  {
    var frame := Pad4(peer) + chunk + [Flag(more)];
    assert frame[..4] == Pad4(peer);
    assert frame[4..] == chunk + [Flag(more)];
    AsciiIsUtf8(Pad4(peer));
    DecimalRoundTrip(peer);
  }

  /**
   Round trip of the codec: for an id below 10000, frame `i` of the encoding
   parses to that id, the `i`-th chunk, and a continuation flag that is set
   on every frame but the last.
   */
  lemma EncodeParse(peer: nat, content: seq<byte>, i: nat)
    requires peer < 10000
    requires i < |Encode(peer, content)|
    ensures Parse(Encode(peer, content)[i])
            == Ok(Message(peer, ChunksOf(content)[i], i < |Encode(peer, content)| - 1))
  {
    EncodeFrames(peer, content, i);
    FrameRoundTrip(peer, Chunk(content, i), i < |Encode(peer, content)| - 1);
  }

  /** Every frame of an id below 10000 fits the 1029-byte read buffer: 4 + 1024 + 1. */
  lemma EncodeFrameSize(peer: nat, content: seq<byte>, i: nat)
    requires peer < 10000
    requires i < |Encode(peer, content)|
    ensures 5 <= |Encode(peer, content)[i]| <= 4 + MAX_CHUNK + 1
  {
    EncodeFrames(peer, content, i);
  }
}

=== FILE: parser_examples.dfy ===
/** The codec on the concrete frames the unit tests of src/parser.rs pin down. */
module ParserExamples {
  import opened Bytes
  import opened DecimalText
  import opened Wrappers
  import opened Parser

  /** Ids under 1000 are zero-padded to four digits; wider ids keep every digit. */
  lemma Pad4Examples()
    ensures Pad4(42) == Ascii("0042")
    ensures Pad4(999) == Ascii("0999")
    ensures Pad4(12345) == Ascii("12345")
  {
    Pad4Of42();
    Pad4Of999();
    Pad4Of12345();
    assert Ascii("0042") == [48, 48, 52, 50];
    assert Ascii("0999") == [48, 57, 57, 57];
    assert Ascii("12345") == [49, 50, 51, 52, 53];
  }

  lemma Pad4Of42()
    ensures Pad4(42) == [48, 48, 52, 50]
  {
    assert Decimal(4) == [52];
    assert Decimal(42) == [52, 50];
  }

  lemma Pad4Of999()
    ensures Pad4(999) == [48, 57, 57, 57]
  {
    assert Decimal(9) == [57];
    assert Decimal(99) == [57, 57];
    assert Decimal(999) == [57, 57, 57];
  }

  lemma Pad4Of123()
    ensures Pad4(123) == [48, 49, 50, 51]
  {
    assert Decimal(1) == [49];
    assert Decimal(12) == [49, 50];
    assert Decimal(123) == [49, 50, 51];
  }

  lemma Pad4Of1234()
    ensures Pad4(1234) == [49, 50, 51, 52]
  {
    assert Decimal(1) == [49];
    assert Decimal(12) == [49, 50];
    assert Decimal(123) == [49, 50, 51];
    assert Decimal(1234) == [49, 50, 51, 52];
  }

  lemma Pad4Of12345()
    ensures Pad4(12345) == [49, 50, 51, 52, 53]
  {
    assert Decimal(1) == [49];
    assert Decimal(12) == [49, 50];
    assert Decimal(123) == [49, 50, 51];
    assert Decimal(1234) == [49, 50, 51, 52];
    assert Decimal(12345) == [49, 50, 51, 52, 53];
  }

  /** An empty payload is still sent: one frame holding the id and the flag '0'. */
  lemma EncodeEmpty()
    ensures Encode(999, []) == [Ascii("0999") + [DIGIT_ZERO]]
  {
    Pad4Of999();
    assert Ascii("0999") == [48, 57, 57, 57];
    var empty: seq<byte> := [];
    assert Encode(999, empty) == [Pad4(999) + empty + [Flag(false)]];
    assert Pad4(999) + empty == Ascii("0999");
  }

  lemma EncodeSimple()
    ensures Encode(42, Ascii("Hello, World!")) == [Ascii("0042") + Ascii("Hello, World!") + [DIGIT_ZERO]]
  {
    Pad4Of42();
    assert Ascii("0042") == [48, 48, 52, 50];
    var content := Ascii("Hello, World!");
    assert Encode(42, content) == [Pad4(42) + content + [Flag(false)]];
  }

  /** Exactly 1024 bytes fit one frame; 2000 bytes take a full frame and one of 976. */
  lemma EncodeSizes(a: seq<byte>, b: seq<byte>)
    requires |a| == 1024 && |b| == 2000
    ensures Encode(1, a) == [Pad4(1) + a + [DIGIT_ZERO]]
    ensures |Encode(123, b)| == 2
    ensures Encode(123, b)[0] == Pad4(123) + b[..1024] + [DIGIT_ONE]
    ensures Encode(123, b)[1] == Pad4(123) + b[1024..] + [DIGIT_ZERO]
    ensures |b[1024..]| == 976
  {
    EncodeFullFrame(a);
    EncodeTwoFrames(b);
  }

  lemma EncodeFullFrame(a: seq<byte>)
    requires |a| == 1024
    ensures Encode(1, a) == [Pad4(1) + a + [DIGIT_ZERO]]
  {
    EncodeFrames(1, a, 0);
    assert Chunk(a, 0) == a;
  }

  lemma EncodeTwoFrames(b: seq<byte>)
    requires |b| == 2000
    ensures |Encode(123, b)| == 2
    ensures Encode(123, b)[0] == Pad4(123) + b[..1024] + [DIGIT_ONE]
    ensures Encode(123, b)[1] == Pad4(123) + b[1024..] + [DIGIT_ZERO]
  {
    EncodeFrames(123, b, 0);
    EncodeFrames(123, b, 1);
    assert Chunk(b, 0) == b[..1024];
    assert Chunk(b, 1) == b[1024..];
  }

  lemma ParseSimple()
    ensures Parse(Ascii("0042") + Ascii("Hello!") + [DIGIT_ZERO]) == Ok(Message(42, Ascii("Hello!"), false))
  {
    assert Pad4(42) == Ascii("0042") by {
      assert Decimal(42) == [52, 50];
    }
    FrameRoundTrip(42, Ascii("Hello!"), false);
  }

  lemma ParseWithMoreFlag()
    ensures Parse(Ascii("0123") + Ascii("data") + [DIGIT_ONE]) == Ok(Message(123, Ascii("data"), true))
  {
    Pad4Of123();
    assert Ascii("0123") == [48, 49, 50, 51];
    FrameRoundTrip(123, Ascii("data"), true);
  }

  /** Binary payload bytes pass through unchanged. */
  lemma ParseBinary()
    ensures Parse(Ascii("0001") + [0xFF, 0x00, 0xAA, 0x55] + [DIGIT_ZERO])
            == Ok(Message(1, [0xFF, 0x00, 0xAA, 0x55], false))
  {
    assert Pad4(1) == Ascii("0001") by {
      assert Decimal(1) == [49];
    }
    FrameRoundTrip(1, [0xFF, 0x00, 0xAA, 0x55], false);
  }

  lemma ParseFailures()
    ensures Parse(Ascii("abcd") + Ascii("Hello!") + [DIGIT_ZERO]) == Err(PeerNotUsize)
    ensures Parse(Ascii("12")) == Err(PeerLessThanFour)
    ensures Parse(Ascii("0042")) == Err(NoContent)
    ensures Parse([0xFF]) == Err(PeerNotUsize)
  {
    var bad := Ascii("abcd") + Ascii("Hello!") + [DIGIT_ZERO];
    assert bad[..4] == Ascii("abcd");
    ParseBadPeer(bad);
    AsciiIsUtf8(Ascii("12"));
    ParseShort(Ascii("12"));
    assert AllDigits(Ascii("0042"));
    ParseNoContent(Ascii("0042"));
    ParseShort([0xFF]);
  }

  /**
   A frame whose last byte is neither '0' nor '1' is rejected with
   `NoEnding` (the unit test at src/parser.rs:145-155 expects `NoContent`,
   which the code does not return).
   */
  lemma ParseBadFlag()
    ensures Parse(Ascii("0042") + Ascii("Hello!") + Ascii("x")) == Err(NoEnding)
  {
    var input := Ascii("0042") + Ascii("Hello!") + Ascii("x");
    assert input[..4] == Ascii("0042");
    assert AllDigits(input[..4]);
    ParseNoEnding(input);
  }

  /** `usize::from_str` accepts one leading '+', so "+042" is the id 42. */
  lemma ParsePlusSign()
    ensures Parse(Ascii("+042") + Ascii("hi") + [DIGIT_ZERO]) == Ok(Message(42, Ascii("hi"), false))
  {
    var input := Ascii("+042") + Ascii("hi") + [DIGIT_ZERO];
    var field := input[..4];
    assert field == [43, 48, 52, 50];
    var digits: seq<byte> := [48, 52, 50];
    assert field[1..] == digits;
    assert AllDigits(digits);
    FourByteField(field);
    assert DigitsValue(digits) == 42 by {
      assert digits[..2] == [48, 52];
      assert digits[..2][..1] == [48];
      assert [48][..0] == [];
    }
    AsciiIsUtf8(field);
    assert input[4..] == Ascii("hi") + [DIGIT_ZERO];
  }

  /**
   An id of five or more digits is not truncated by the encoder, so its
   fifth digit is read back as payload: id 12345 arrives as 1234 with
   payload "5hi".
   */
  lemma WideIdMisread()
    ensures Encode(12345, Ascii("hi")) == [Ascii("12345") + Ascii("hi") + [DIGIT_ZERO]]
    ensures Parse(Ascii("12345") + Ascii("hi") + [DIGIT_ZERO]) == Ok(Message(1234, Ascii("5hi"), false))
  {
    WideIdEncoded();
    WideIdParsed();
  }

  lemma WideIdEncoded()
    ensures Encode(12345, Ascii("hi")) == [Ascii("12345") + Ascii("hi") + [DIGIT_ZERO]]
  {
    Pad4Of12345();
    assert Ascii("12345") == [49, 50, 51, 52, 53];
    assert Encode(12345, Ascii("hi")) == [Pad4(12345) + Ascii("hi") + [Flag(false)]];
  }

  lemma WideIdParsed()
    ensures Parse(Ascii("12345") + Ascii("hi") + [DIGIT_ZERO]) == Ok(Message(1234, Ascii("5hi"), false))
  {
    Pad4Of1234();
    var payload := Ascii("5hi");
    assert payload == [53, 104, 105];
    assert Ascii("12345") + Ascii("hi") + [DIGIT_ZERO] == [49, 50, 51, 52] + payload + [Flag(false)];
    FrameRoundTrip(1234, payload, false);
  }
}

=== FILE: peer_list.dfy ===
/**
 The peer-list announcement text: the server writes "PEERS:" followed by
 the registered ids in decimal, joined by ',' (`peers_to_string`), and the
 client reads the ids back from the text after the prefix
 (`read_system_message`).
 */
module PeerList {
  import opened Bytes
  import opened DecimalText
  import opened Text
  import opened Wrappers
  import opened FilterMaps

  /** The bytes of "PEERS:". */
  const PEERS_PREFIX: seq<byte> := [80, 69, 69, 82, 83, 58]

  /** The decimal form of every id, in order. */
  function DecimalPieces(ids: seq<nat>): (pieces: seq<seq<byte>>)
    ensures |pieces| == |ids|
    ensures forall i :: 0 <= i < |ids| ==> pieces[i] == Decimal(ids[i])
  {
    seq(|ids|, i requires 0 <= i < |ids| => Decimal(ids[i]))
  }

  /**
   `peers_to_string`: the ids in decimal, separated by ',' with no spaces;
   the empty text for no ids. The text holds only digits and commas, and
   cutting it at the commas gives back each id's decimal form, in order.
   */
  function PeersToString(ids: seq<nat>): (r: seq<byte>)
    ensures |ids| == 0 <==> r == []
    ensures forall i :: 0 <= i < |r| ==> IsDigit(r[i]) || r[i] == COMMA
    ensures |ids| > 0 ==> Split(r, COMMA) == DecimalPieces(ids)
  {
    var pieces := DecimalPieces(ids);
    JoinDigits(pieces);
    DecimalPiecesSplit(ids);
    Join(pieces, COMMA)
  }

  /** Decimal forms hold no comma, so splitting their join at ',' recovers them. */
  lemma DecimalPiecesSplit(ids: seq<nat>)
    ensures |ids| > 0 ==> Split(Join(DecimalPieces(ids), COMMA), COMMA) == DecimalPieces(ids)
  {
    if |ids| > 0 {
      var pieces := DecimalPieces(ids);
      forall i | 0 <= i < |pieces|
        ensures Excludes(pieces[i], COMMA)
      {
        assert AllDigits(pieces[i]);
      }
      SplitJoin(pieces, COMMA);
    }
  }

  /** Joining nonempty digit strings with ',' gives a nonempty text of digits and commas. */
  lemma {:induction false} JoinDigits(pieces: seq<seq<byte>>)
    requires forall i :: 0 <= i < |pieces| ==> |pieces[i]| >= 1 && AllDigits(pieces[i])
    ensures |pieces| == 0 <==> Join(pieces, COMMA) == []
    ensures forall i :: 0 <= i < |Join(pieces, COMMA)| ==> IsDigit(Join(pieces, COMMA)[i]) || Join(pieces, COMMA)[i] == COMMA
    decreases |pieces|
  {
    if |pieces| > 1 {
      JoinDigits(pieces[1..]);
      var r := Join(pieces, COMMA);
      var tail := Join(pieces[1..], COMMA);
      assert r == pieces[0] + [COMMA] + tail;
      forall i | 0 <= i < |r|
        ensures IsDigit(r[i]) || r[i] == COMMA
      {
        if i < |pieces[0]| {
          assert r[i] == pieces[0][i];
        } else if i > |pieces[0]| {
          assert r[i] == tail[i - |pieces[0]| - 1];
        }
      }
    }
  }

  /** The payload of an announcement: `format!("PEERS:{}", peers)`. */
  function PeerListText(ids: seq<nat>): (r: seq<byte>)
    ensures |r| >= |PEERS_PREFIX| && r[..|PEERS_PREFIX|] == PEERS_PREFIX
    ensures r[|PEERS_PREFIX|..] == PeersToString(ids)
  {
    PEERS_PREFIX + PeersToString(ids)
  }

  /** The id in one comma-separated entry: the trimmed entry as a `usize`. */
  function PieceId(piece: seq<byte>): (r: Option<nat>)
    ensures r.Some? ==> r.value <= USIZE_MAX
  {
    ParseUsize(Trim(piece))
  }

  /**
   The ids kept from comma-separated pieces: each piece is trimmed and
   kept, in order, when it is a `usize`; every other piece is dropped.
   */
  function KeepIds(pieces: seq<seq<byte>>): (ids: seq<nat>)
    ensures |ids| <= |pieces|
    ensures forall i :: 0 <= i < |ids| ==> ids[i] <= USIZE_MAX
  {
    FilterMapBound(pieces, PieceId, USIZE_MAX);
    FilterMap(pieces, PieceId)
  }

  /**
   The id list after "PEERS:": the text split on ',', each piece trimmed
   and parsed as a `usize`, failures dropped. An empty text is one empty
   piece, which is dropped, so it gives no ids.
   */
  function ParsePeerList(text: seq<byte>): (ids: seq<nat>)
    ensures text == [] ==> ids == []
    ensures forall i :: 0 <= i < |ids| ==> ids[i] <= USIZE_MAX
  {
    EmptyPieceDropped();
    KeepIds(Split(text, COMMA))
  }

  /** An empty piece holds no id. */
  lemma EmptyPieceDropped()
    ensures KeepIds([[]]) == []
  {
    var empty: seq<byte> := [];
    assert PieceId(empty) == None by {
      TrimEmpty();
    }
    FilterMapOne(empty, PieceId);
  }

  /** An id is kept exactly when some piece, trimmed, parses to it. */
  lemma KeepIdsMembers(pieces: seq<seq<byte>>, x: nat)
    ensures x in KeepIds(pieces) <==> exists j :: 0 <= j < |pieces| && PieceId(pieces[j]) == Some(x)
  {
    FilterMapMembers(pieces, PieceId, x);
  }

  /** Piece `j` contributes its id, if any, between the ids of the pieces before and after it. */
  lemma KeepIdsInPlace(pieces: seq<seq<byte>>, j: nat)
    requires j < |pieces|
    ensures KeepIds(pieces) == KeepIds(pieces[..j]) + Present(PieceId(pieces[j])) + KeepIds(pieces[j + 1..])
  {
    FilterMapInPlace(pieces, PieceId, j);
  }

  /**
   An id is in the list after "PEERS:" exactly when one of the
   comma-separated entries, trimmed, parses to it as a `usize`.
   */
  lemma ParsePeerListMembers(text: seq<byte>, x: nat)
    ensures x in ParsePeerList(text)
            <==> exists j :: 0 <= j < |Split(text, COMMA)| && PieceId(Split(text, COMMA)[j]) == Some(x)
  {
    EntryMembers(text, x);
  }

  /** `KeepIdsMembers` for the entries of one text. */
  lemma EntryMembers(text: seq<byte>, x: nat)
    ensures x in KeepIds(Split(text, COMMA))
            <==> exists j :: 0 <= j < |Split(text, COMMA)| && PieceId(Split(text, COMMA)[j]) == Some(x)
  {
    KeepIdsMembers(Split(text, COMMA), x);
  }

  /**
   The entries keep their order: entry `j` contributes its id, if it
   parses, after the ids of the entries before it and before those of the
   entries after it.
   */
  lemma ParsePeerListInPlace(text: seq<byte>, j: nat)
    requires j < |Split(text, COMMA)|
    ensures var pieces := Split(text, COMMA);
            ParsePeerList(text) == KeepIds(pieces[..j]) + Present(PieceId(pieces[j])) + KeepIds(pieces[j + 1..])
  {
    KeepIdsInPlace(Split(text, COMMA), j);
  }

  /** The decimal form of an id is kept whole: no whitespace to trim, and it parses back to the id. */
  lemma DecimalKept(n: nat)
    requires n <= USIZE_MAX
    ensures PieceId(Decimal(n)) == Some(n)
  {
    TrimUnchanged(Decimal(n));
    DecimalRoundTrip(n);
  }

  /** The decimal forms of ids are kept as exactly those ids, in order. */
  lemma {:induction false} KeepDecimals(ids: seq<nat>)
    requires forall i :: 0 <= i < |ids| ==> ids[i] <= USIZE_MAX
    ensures KeepIds(DecimalPieces(ids)) == ids
    decreases |ids|
  {
    if |ids| > 0 {
      var pieces := DecimalPieces(ids);
      DecimalKept(ids[0]);
      assert pieces[1..] == DecimalPieces(ids[1..]);
      KeepDecimals(ids[1..]);
      KeepIdsFirst(pieces);
    }
  }

  /** The first piece's id, if any, comes before those of the rest. */
  lemma KeepIdsFirst(pieces: seq<seq<byte>>)
    requires |pieces| > 0
    ensures KeepIds(pieces) == Present(PieceId(pieces[0])) + KeepIds(pieces[1..])
  {
    KeepIdsInPlace(pieces, 0);
    assert pieces[..0] == [];
  }

  /**
   The client reads back exactly the ids the server wrote, in the same
   order, for any list of `usize` ids; no ids give "PEERS:" alone, which
   reads back as no ids.
   */
  lemma PeerListRoundTrip(ids: seq<nat>)
    requires forall i :: 0 <= i < |ids| ==> ids[i] <= USIZE_MAX
    ensures ParsePeerList(PeersToString(ids)) == ids
  {
    if |ids| > 0 {
      KeepDecimals(ids);
    }
  }
}

=== FILE: relay.dfy ===
/**
 Server and client together: what a client makes of the frames the server
 sends it, read back one frame per read.
 */
module Relay {
  import opened Bytes
  import opened DecimalText
  import opened Wrappers
  import opened Parser
  import opened Shared
  import opened PeerList
  import opened Server
  import opened Client

  /**
   A peer list announced by the server reaches a client as one message
   from id 0 that decodes to the announced ids in the announced order.
   */
  lemma AnnouncementArrives(a: Announcement, more: seq<ReadOutcome>)
    requires forall i :: 0 <= i < |a.listed| ==> a.listed[i] <= USIZE_MAX
    requires FitsBuffer(more)
    ensures FitsBuffer(Reads(AnnouncementFrames(a)) + more)
    ensures var x := Extract(Reads(AnnouncementFrames(a)) + more);
            && x == Extraction(Ok(Message(0, PeerListText(a.listed), false)), more)
            && AsciiControl(x.outcome.value)
            && ReadSystemMessage(x.outcome.value) == Ok(Peers(a.listed))
  {
    EncodeThenExtract(0, PeerListText(a.listed), more);
    ReadAnnouncement(a.listed, false);
  }

  /**
   After a connection joins, the announcement lists exactly the registered
   ids, the new one included, all of them `usize` values; a client that
   receives it (see `AnnouncementArrives`) then knows every registered id,
   and its histories are unchanged.
   */
  lemma JoinAnnouncementKnown(r: Registry, sender: ChanId, order: seq<nat>, h: Histories)
    requires Inv(r) && r.nextIndex <= USIZE_MAX
    requires Enumerates(order, r.users.Keys + {r.nextIndex})
    ensures var a := AddUser(r, sender, order);
            var m := Message(0, PeerListText(a.announcement.listed), false);
            && a.announcement.listed == order
            && (forall i :: 0 <= i < |order| ==> order[i] <= USIZE_MAX)
            && AsciiControl(m)
            && Receive(h, Ok(m)).Keys == h.Keys + a.registry.users.Keys
  {
    var a := AddUser(r, sender, order);
    RegisteredIdsFit(r, sender, order);
    ReceiveAnnouncement(h, order);
  }

  /** Every id listed after a join is at most the id handed out, so a `usize`. */
  lemma RegisteredIdsFit(r: Registry, sender: ChanId, order: seq<nat>)
    requires Inv(r) && r.nextIndex <= USIZE_MAX
    requires Enumerates(order, r.users.Keys + {r.nextIndex})
    ensures forall i :: 0 <= i < |order| ==> order[i] <= USIZE_MAX
  {
    forall i | 0 <= i < |order|
      ensures order[i] <= USIZE_MAX
    {
      assert order[i] in r.users.Keys + {r.nextIndex};
    }
  }

  /**
   After a connection leaves, the announcement lists exactly the remaining
   ids, so a client that receives it learns them and not the departed one.
   */
  lemma LeaveAnnouncementLists(r: Registry, id: nat, order: seq<nat>)
    requires Inv(r) && r.nextIndex <= USIZE_MAX
    requires Enumerates(order, r.users.Keys - {id})
    ensures var d := RemoveUser(r, id, order);
            var m := Message(0, PeerListText(d.announcement.listed), false);
            && (forall i :: 0 <= i < |d.announcement.listed| ==> d.announcement.listed[i] <= USIZE_MAX)
            && AsciiControl(m)
            && ReadSystemMessage(m) == Ok(Peers(order))
            && (set q | q in order) == r.users.Keys - {id}
  {
    RemainingIdsFit(r, id, order);
    ReadAnnouncement(order, false);
  }

  /** Every id listed after a leave was registered before it, so a `usize`. */
  lemma RemainingIdsFit(r: Registry, id: nat, order: seq<nat>)
    requires Inv(r) && r.nextIndex <= USIZE_MAX
    requires Enumerates(order, r.users.Keys - {id})
    ensures forall i :: 0 <= i < |order| ==> order[i] <= USIZE_MAX
  {
    forall i | 0 <= i < |order|
      ensures order[i] <= USIZE_MAX
    {
      assert order[i] in r.users;
    }
  }

  /** Any text sent under id 0 arrives as one message from id 0 holding that text. */
  lemma ControlTextArrives(text: seq<byte>, more: seq<ReadOutcome>)
    requires FitsBuffer(more)
    ensures FitsBuffer(Reads(Encode(0, text)) + more)
    ensures Extract(Reads(Encode(0, text)) + more) == Extraction(Ok(Message(0, text, false)), more)
  {
    EncodeThenExtract(0, text, more);
  }

  /**
   The server's error replies ("Invalid message", "Peer not found",
   "Failed to send message") reach the client (see `ControlTextArrives`)
   as messages from id 0 that it rejects as control messages and that
   leave its histories unchanged.
   */
  lemma ErrorRepliesIgnored(r: Registry, src: nat, extracted: Result<Message, ExtractError>, closed: set<ChanId>,
                            h: Histories)
    requires Inbound(r, src, extracted, closed).Reply?
    ensures var m := Message(0, Inbound(r, src, extracted, closed).text, false);
            && !StartsWith(m.content, PEERS_PREFIX)
            && AsciiControl(m)
            && ReadSystemMessage(m) == Err(NotASysMsg)
            && Receive(h, Ok(m)) == h
  {
    var text := Inbound(r, src, extracted, closed).text;
    if text == INVALID_MESSAGE {
      assert text[0] != PEERS_PREFIX[0];
    } else if text == PEER_NOT_FOUND {
      assert text[1] != PEERS_PREFIX[1];
    } else {
      assert text[0] != PEERS_PREFIX[0];
    }
  }
}

=== FILE: server.dfy ===
/**
 The relay server (src/server.rs) without its sockets and threads: the
 session registry as a value, its three transitions, the routing of one
 message, and what a connection's read loop does with each extraction.
 */
module Server {
  import opened Bytes
  import opened Wrappers
  import opened Parser
  import opened Shared
  import opened PeerList

  /** A connection's outbound channel (the `Sender` registered for it), by identity. */
  type ChanId = nat

  /** `GlobalState`: the registered connections by id, and the next id to hand out. */
  datatype Registry = Registry(users: map<nat, ChanId>, nextIndex: nat)

  /** Every registered id was handed out earlier: ids start at 1 and stay below `nextIndex`. */
  predicate Inv(r: Registry) {
    && r.nextIndex >= 1
    && forall id :: id in r.users ==> 1 <= id < r.nextIndex
  }

  /** `GlobalState::new`: nobody registered, and the first id handed out will be 1. */
  function NewRegistry(): (r: Registry)
    ensures Inv(r)
    ensures forall id :: GetUser(r, id) == None
    ensures r.nextIndex == 1
  {
    Registry(map[], 1)
  }

  /** `GlobalState::get_user`: the channel registered under `id`, if any. */
  function GetUser(r: Registry, id: nat): (c: Option<ChanId>)
    ensures c.Some? <==> id in r.users
    ensures c.Some? ==> c.value == r.users[id]
  {
    if id in r.users then Some(r.users[id]) else None
  }

  /**
   `order` lists each key of the map exactly once: the order in which the
   `HashMap` happens to iterate, which the code does not fix.
   */
  predicate Enumerates(order: seq<nat>, keys: set<nat>) {
    && (forall i, j :: 0 <= i < j < |order| ==> order[i] != order[j])
    && (forall i :: 0 <= i < |order| ==> order[i] in keys)
    && (forall k :: k in keys ==> k in order)
  }

  /** A peer-list broadcast as data: the channels it goes to and the ids it lists, in order. */
  datatype Announcement = Announcement(recipients: seq<ChanId>, listed: seq<nat>)

  /**
   The frames every recipient of an announcement receives: the "PEERS:"
   text under id 0. Each frame parses as a message from id 0 carrying the
   next piece of that text, and only the last frame ends the message.
   */
  function AnnouncementFrames(a: Announcement): (frames: seq<seq<byte>>)
    ensures |frames| >= 1 && |frames| == |ChunksOf(PeerListText(a.listed))|
    ensures forall i :: 0 <= i < |frames| ==>
              Parse(frames[i]) == Ok(Message(0, ChunksOf(PeerListText(a.listed))[i], i < |frames| - 1))
  {
    var frames := Encode(0, PeerListText(a.listed));
    assert forall i :: 0 <= i < |frames| ==>
             Parse(frames[i]) == Ok(Message(0, ChunksOf(PeerListText(a.listed))[i], i < |frames| - 1)) by {
      forall i | 0 <= i < |frames|
        ensures Parse(frames[i]) == Ok(Message(0, ChunksOf(PeerListText(a.listed))[i], i < |frames| - 1))
      {
        EncodeParse(0, PeerListText(a.listed), i);
      }
    }
    frames
  }

  /**
   The broadcast after a membership change: the current ids in map order
   as a "PEERS:" text under id 0, sent to the current channels in the same
   order (`keys()` and `values()` of one unchanged map iterate alike).
   */
  function Announce(users: map<nat, ChanId>, order: seq<nat>): (a: Announcement)
    requires Enumerates(order, users.Keys)
    ensures a.listed == order
    ensures |a.recipients| == |order|
    ensures forall i :: 0 <= i < |order| ==> a.recipients[i] == users[order[i]]
    ensures forall id :: id in users ==> users[id] in a.recipients
    ensures forall i :: 0 <= i < |a.recipients| ==> a.recipients[i] in users.Values
  {
    var recipients := seq(|order|, i requires 0 <= i < |order| => users[order[i]]);
    assert forall id :: id in users ==> users[id] in recipients by {
      forall id | id in users
        ensures users[id] in recipients
      {
        var i :| 0 <= i < |order| && order[i] == id;
        assert recipients[i] == users[id];
      }
    }
    Announcement(recipients, order)
  }

  /** The registry step of `add_user`: insert under `nextIndex`, then advance it. */
  function Register(r: Registry, sender: ChanId): (r': Registry)
    ensures GetUser(r', r.nextIndex) == Some(sender)
    ensures forall id :: id != r.nextIndex ==> GetUser(r', id) == GetUser(r, id)
    ensures r'.nextIndex == r.nextIndex + 1
    ensures Inv(r) ==> Inv(r') && r.nextIndex !in r.users
  {
    Registry(r.users[r.nextIndex := sender], r.nextIndex + 1)
  }

  /** The registry step of `remove_user`: drop the id, keep `nextIndex`. */
  function Deregister(r: Registry, id: nat): (r': Registry)
    ensures GetUser(r', id) == None
    ensures forall other :: other != id ==> GetUser(r', other) == GetUser(r, other)
    ensures r'.nextIndex == r.nextIndex
    ensures id !in r.users ==> r' == r
    ensures Inv(r) ==> Inv(r')
  {
    Registry(r.users - {id}, r.nextIndex)
  }

  /** What `add_user` returns and leaves behind. */
  datatype Added = Added(registry: Registry, id: nat, announcement: Announcement)

  /**
   `GlobalState::add_user`: register the connection under the next id and
   announce the new peer list to every registered channel. The new id was
   never handed out before, every other lookup is unchanged, and the list,
   including the new id, goes to every registered channel, the new one
   included, in map order.
   */
  function AddUser(r: Registry, sender: ChanId, order: seq<nat>): (a: Added)
    requires Enumerates(order, r.users.Keys + {r.nextIndex})
    ensures a.id == r.nextIndex && a.registry == Register(r, sender)
    ensures GetUser(a.registry, a.id) == Some(sender)
    ensures forall id :: id != a.id ==> GetUser(a.registry, id) == GetUser(r, id)
    ensures a.registry.nextIndex == a.id + 1
    ensures Inv(r) ==> Inv(a.registry) && a.id >= 1 && a.id !in r.users
    ensures a.announcement.listed == order && a.id in order
    ensures |a.announcement.recipients| == |order|
    ensures forall i :: 0 <= i < |order| ==> Some(a.announcement.recipients[i]) == GetUser(a.registry, order[i])
    ensures forall id :: id in a.registry.users ==> a.registry.users[id] in a.announcement.recipients
  {
    var r' := Register(r, sender);
    assert r'.users.Keys == r.users.Keys + {r.nextIndex};
    Added(r', r.nextIndex, Announce(r'.users, order))
  }

  /** What `remove_user` leaves behind. */
  datatype Removed = Removed(registry: Registry, announcement: Announcement)

  /**
   `GlobalState::remove_user`: drop the id and announce the remaining peer
   list to the remaining channels, even when the id was not registered.
   The list leaves the removed id out and reaches every remaining channel,
   in map order.
   */
  function RemoveUser(r: Registry, id: nat, order: seq<nat>): (d: Removed)
    requires Enumerates(order, r.users.Keys - {id})
    ensures d.registry == Deregister(r, id)
    ensures GetUser(d.registry, id) == None
    ensures forall other :: other != id ==> GetUser(d.registry, other) == GetUser(r, other)
    ensures d.registry.nextIndex == r.nextIndex
    ensures d.announcement.listed == order && id !in order
    ensures |d.announcement.recipients| == |order|
    ensures forall i :: 0 <= i < |order| ==> Some(d.announcement.recipients[i]) == GetUser(r, order[i])
    ensures forall other :: other in r.users && other != id ==> r.users[other] in d.announcement.recipients
  {
    var r' := Deregister(r, id);
    assert r'.users.Keys == r.users.Keys - {id};
    var announcement := Announce(r'.users, order);
    assert forall other :: other in r.users && other != id ==> r.users[other] == r'.users[other];
    Removed(r', announcement)
  }

  /** A membership change, as far as the registry sees it. */
  datatype Change = Joined(sender: ChanId) | Left(id: nat)

  /** The registry after a sequence of changes, and the ids handed out on the way, in order. */
  datatype Replayed = Replayed(registry: Registry, ids: seq<nat>)

  function Replay(r: Registry, changes: seq<Change>): (x: Replayed)
    decreases |changes|
  {
    if |changes| == 0 then Replayed(r, [])
    else
      match changes[0]
      case Joined(sender) =>
        var rest := Replay(Register(r, sender), changes[1..]);
        Replayed(rest.registry, [r.nextIndex] + rest.ids)
      case Left(id) => Replay(Deregister(r, id), changes[1..])
  }

  /**
   Ids are handed out as consecutive numbers from `nextIndex` on, one per
   join, whatever leaves happen in between; none of them was registered
   before, so an id is never reused.
   */
  lemma {:induction false} ReplayIds(r: Registry, changes: seq<Change>)
    requires Inv(r)
    ensures var x := Replay(r, changes);
            && Inv(x.registry)
            && x.registry.nextIndex == r.nextIndex + |x.ids|
            && (forall i :: 0 <= i < |x.ids| ==> x.ids[i] == r.nextIndex + i)
            && (forall i :: 0 <= i < |x.ids| ==> x.ids[i] !in r.users)
    decreases |changes|
  {
    if |changes| > 0 {
      match changes[0]
      case Joined(sender) =>
        var r' := Register(r, sender);
        ReplayIds(r', changes[1..]);
      case Left(id) =>
        ReplayIds(Deregister(r, id), changes[1..]);
    }
  }

  /** From a fresh registry the ids handed out are 1, 2, 3, ...; 0 is never one of them. */
  lemma FreshIds(changes: seq<Change>)
    ensures var x := Replay(NewRegistry(), changes);
            && (forall i :: 0 <= i < |x.ids| ==> x.ids[i] == i + 1)
            && Inv(x.registry)
            && GetUser(x.registry, 0) == None
  {
    ReplayIds(NewRegistry(), changes);
  }

  /** A connection's whole registration: registering and then deregistering it restores the map. */
  lemma RegisterThenDeregister(r: Registry, sender: ChanId)
    requires Inv(r)
    ensures Deregister(Register(r, sender), r.nextIndex).users == r.users
    ensures Deregister(Register(r, sender), r.nextIndex).nextIndex == r.nextIndex + 1
  {
    var r' := Deregister(Register(r, sender), r.nextIndex);
    assert forall id :: GetUser(r', id) == GetUser(r, id);
  }

  /** What one message enqueues: the destination channel and the re-encoded frames. */
  datatype Delivery = Delivery(chan: ChanId, frames: seq<seq<byte>>)

  /** `HandleMessageError`; a failed send hands back the frames it could not enqueue. */
  datatype HandleError = PeerNotFound(peer: nat) | SendChanError(undelivered: seq<seq<byte>>)

  /**
   `handle_message`: look up the destination; the message goes out under
   the sender's id `src`, re-encoded, on the destination's channel. An
   unregistered destination is `PeerNotFound`; a channel whose receiver is
   gone (one of `closed`) is `SendChanError`.
   */
  function HandleMessage(r: Registry, src: nat, msg: Message, closed: set<ChanId>): (res: Result<Delivery, HandleError>)
    ensures res == Err(PeerNotFound(msg.peer)) <==> GetUser(r, msg.peer).None?
    ensures res.Err? && res.error.PeerNotFound? ==> res.error.peer == msg.peer
    ensures res.Ok? <==> GetUser(r, msg.peer).Some? && GetUser(r, msg.peer).value !in closed
    ensures res.Ok? ==> Some(res.value.chan) == GetUser(r, msg.peer)
    ensures res.Ok? ==> res.value.frames == Encode(src, msg.content)
    ensures res.Err? && res.error.SendChanError? ==> res.error.undelivered == Encode(src, msg.content)
  {
    match GetUser(r, msg.peer)
    case None => Err(PeerNotFound(msg.peer))
    case Some(chan) =>
      var frames := Encode(src, msg.content);
      if chan in closed then Err(SendChanError(frames)) else Ok(Delivery(chan, frames))
  }

  /** Id 0 is never registered, so a message addressed to 0 is never routed. */
  lemma NoPeerZero(r: Registry, src: nat, msg: Message, closed: set<ChanId>)
    requires Inv(r) && msg.peer == 0
    ensures HandleMessage(r, src, msg, closed) == Err(PeerNotFound(0))
  {
  }

  /**
   The receiver sees the sender: for a source id below 10000 the delivered
   frames, read back one per read, reassemble into the original payload
   under the source id.
   */
  lemma RoutedMessageArrives(r: Registry, src: nat, msg: Message, closed: set<ChanId>, more: seq<ReadOutcome>)
    requires src < 10000
    requires HandleMessage(r, src, msg, closed).Ok?
    requires FitsBuffer(more)
    ensures var frames := HandleMessage(r, src, msg, closed).value.frames;
            && FitsBuffer(Reads(frames) + more)
            && Extract(Reads(frames) + more) == Extraction(Ok(Message(src, msg.content, false)), more)
  {
    EncodeThenExtract(src, msg.content, more);
  }

  /** The bytes of "Invalid message". */
  const INVALID_MESSAGE: seq<byte> := [73, 110, 118, 97, 108, 105, 100, 32, 109, 101, 115, 115, 97, 103, 101]
  /** The bytes of "Peer not found". */
  const PEER_NOT_FOUND: seq<byte> := [80, 101, 101, 114, 32, 110, 111, 116, 32, 102, 111, 117, 110, 100]
  /** The bytes of "Failed to send message". */
  const FAILED_TO_SEND: seq<byte> :=
    [70, 97, 105, 108, 101, 100, 32, 116, 111, 32, 115, 101, 110, 100, 32, 109, 101, 115, 115, 97, 103, 101]

  /** What the read loop of a connection does after one extraction. */
  datatype Action =
    | Deliver(delivery: Delivery)           // the message was routed
    | Reply(text: seq<byte>)                // this text goes back to the sender, encoded under id 0
    | Retry                                 // nothing to read yet; read again
    | Disconnect                            // the loop ends and the connection is deregistered

  /**
   One pass of the read loop in `handler_chan` for the connection `src`:
   an unparsable frame is answered with "Invalid message", an unknown
   destination with "Peer not found", a dead destination channel with
   "Failed to send message"; `NotReady` reads again; an I/O error or a
   closed connection ends the loop.
   */
  function Inbound(r: Registry, src: nat, extracted: Result<Message, ExtractError>, closed: set<ChanId>): (a: Action)
    ensures a.Disconnect? <==> extracted.Err? && (extracted.error.IOError? || extracted.error == Closed)
    ensures a.Retry? <==> extracted == Err(NotReady)
    ensures a.Deliver? <==> extracted.Ok? && HandleMessage(r, src, extracted.value, closed).Ok?
    ensures a.Deliver? ==> a.delivery == HandleMessage(r, src, extracted.value, closed).value
    ensures a == Reply(INVALID_MESSAGE) <==> extracted.Err? && extracted.error.InvalidMessage?
    ensures a == Reply(PEER_NOT_FOUND) <==>
              (extracted.Ok? && HandleMessage(r, src, extracted.value, closed).Err?
               && HandleMessage(r, src, extracted.value, closed).error.PeerNotFound?)
    ensures a == Reply(FAILED_TO_SEND) <==>
              (extracted.Ok? && HandleMessage(r, src, extracted.value, closed).Err?
               && HandleMessage(r, src, extracted.value, closed).error.SendChanError?)
    ensures a.Reply? ==> a.text in {INVALID_MESSAGE, PEER_NOT_FOUND, FAILED_TO_SEND}
  {
    match extracted
    case Err(IOError(_)) => Disconnect
    case Err(InvalidMessage(_)) => Reply(INVALID_MESSAGE)
    case Err(NotReady) => Retry
    case Err(Closed) => Disconnect
    case Ok(msg) =>
      match HandleMessage(r, src, msg, closed)
      case Ok(delivery) => Deliver(delivery)
      case Err(PeerNotFound(_)) => Reply(PEER_NOT_FOUND)
      case Err(SendChanError(_)) => Reply(FAILED_TO_SEND)
  }

  /** The actions of a read loop and how many reads it consumed before it ended. */
  datatype Served = Served(actions: seq<Action>, consumed: nat)

  /** Whether the read loop ended the connection. */
  predicate Disconnected(actions: seq<Action>) {
    |actions| > 0 && actions[|actions| - 1].Disconnect?
  }

  /**
   The read loop from read step `i` on: each pass makes one
   `extract_message` call starting at the first step not yet consumed and
   acts on its result, until the connection ends or the steps run out.
   `consumed` is the index of the first step left unread.
   */
  function ServeFrom(r: Registry, src: nat, steps: seq<ReadStep>, i: nat, closed: set<ChanId>): (s: Served)
    requires i <= |steps|
    ensures i <= s.consumed <= |steps|
    ensures i == |steps| <==> s.actions == []
    ensures i < |steps| ==> s.actions[0] == Inbound(r, src, ExtractFrom(steps, i, []).outcome, closed)
    ensures i < |steps| && s.actions[0].Disconnect? ==> s.consumed == ExtractFrom(steps, i, []).next
    ensures forall k :: 0 <= k < |s.actions| - 1 ==> !s.actions[k].Disconnect?
    ensures !Disconnected(s.actions) ==> s.consumed == |steps|
    ensures |s.actions| <= s.consumed - i
    decreases |steps| - i
  {
    if i == |steps| then Served([], i)
    else
      var stop := ExtractFrom(steps, i, []);
      var act := Inbound(r, src, stop.outcome, closed);
      if act.Disconnect? then Served([act], stop.next)
      else
        var more := ServeFrom(r, src, steps, stop.next, closed);
        PrependAction(act, more.actions);
        Served([act] + more.actions, more.consumed)
  }

  /** An action that does not end the connection, put before a run of actions. */
  lemma PrependAction(act: Action, rest: seq<Action>)
    requires !act.Disconnect?
    requires forall i :: 0 <= i < |rest| - 1 ==> !rest[i].Disconnect?
    ensures forall i :: 0 <= i < |[act] + rest| - 1 ==> !([act] + rest)[i].Disconnect?
    ensures Disconnected([act] + rest) <==> Disconnected(rest)
  {
    var all := [act] + rest;
    forall i | 0 <= i < |all| - 1
      ensures !all[i].Disconnect?
    {
      if i > 0 {
        assert all[i] == rest[i - 1];
      }
    }
    if |rest| > 0 {
      assert all[|all| - 1] == rest[|rest| - 1];
    }
  }

  /**
   The read loop of `handler_chan` over a sequence of reads, one action per
   `extract_message` call, until the connection ends or the reads run out.
   The first action answers the first call; only the last action can end
   the connection; a loop that did not end the connection consumed every
   read; every action consumes at least one read.
   */
  function Serve(r: Registry, src: nat, outcomes: seq<ReadOutcome>, closed: set<ChanId>): (s: Served)
    requires FitsBuffer(outcomes)
    ensures |outcomes| > 0 ==> |s.actions| >= 1 && s.actions[0] == Inbound(r, src, Extract(outcomes).outcome, closed)
    ensures |outcomes| > 0 && s.actions[0].Disconnect? ==> s.consumed == |outcomes| - |Extract(outcomes).rest|
    ensures |outcomes| == 0 <==> s.actions == []
    ensures forall i :: 0 <= i < |s.actions| - 1 ==> !s.actions[i].Disconnect?
    ensures s.consumed <= |outcomes|
    ensures !Disconnected(s.actions) ==> s.consumed == |outcomes|
    ensures |s.actions| <= s.consumed
  {
    ServeFrom(r, src, Steps(outcomes), 0, closed)
  }

  /**
   After a pass that does not end the connection, the loop goes on exactly
   as a fresh loop over the reads that call left unconsumed.
   */
  lemma ServeResumes(r: Registry, src: nat, outcomes: seq<ReadOutcome>, closed: set<ChanId>)
    requires FitsBuffer(outcomes) && |outcomes| > 0
    requires !Inbound(r, src, Extract(outcomes).outcome, closed).Disconnect?
    ensures var rest := Extract(outcomes).rest;
            && Serve(r, src, outcomes, closed).actions
               == [Inbound(r, src, Extract(outcomes).outcome, closed)] + Serve(r, src, rest, closed).actions
            && Serve(r, src, outcomes, closed).consumed
               == |outcomes| - |rest| + Serve(r, src, rest, closed).consumed
  {
    var steps := Steps(outcomes);
    var next := ExtractFrom(steps, 0, []).next;
    ExtractAt(outcomes, next);
    StepsDrop(outcomes, next);
    ServeFromDrop(r, src, steps, next, next, closed);
  }

  /** The read loop from step `i` does not look at the steps before `k <= i`. */
  lemma {:induction false} ServeFromDrop(r: Registry, src: nat, steps: seq<ReadStep>, k: nat, i: nat, closed: set<ChanId>)
    requires k <= i <= |steps|
    ensures ServeFrom(r, src, steps[k..], i - k, closed).actions == ServeFrom(r, src, steps, i, closed).actions
    ensures ServeFrom(r, src, steps[k..], i - k, closed).consumed == ServeFrom(r, src, steps, i, closed).consumed - k
    decreases |steps| - i
  {
    if i < |steps| {
      ExtractFromDrop(steps, k, i, []);
      var stop := ExtractFrom(steps, i, []);
      assert ExtractFrom(steps[k..], i - k, []) == Stop(stop.outcome, stop.next - k);
      if !Inbound(r, src, stop.outcome, closed).Disconnect? {
        ServeFromDrop(r, src, steps, k, stop.next, closed);
      }
    }
  }

  /** One connection from registration to the end of its read loop. */
  datatype Connection = Connection(id: nat, actions: seq<Action>, registry: Registry, announcements: seq<Announcement>)

  /**
   `handler_chan` without its threads: register the connection, run its
   read loop against the registry as it stands, and deregister it once the
   loop ends. `joinOrder` and `leaveOrder` are the map orders of the two
   announcements.
   */
  function Connect(r: Registry, sender: ChanId, outcomes: seq<ReadOutcome>, closed: set<ChanId>,
                   joinOrder: seq<nat>, leaveOrder: seq<nat>): (c: Connection)
    requires FitsBuffer(outcomes)
    requires Enumerates(joinOrder, r.users.Keys + {r.nextIndex})
    requires Enumerates(leaveOrder, r.users.Keys - {r.nextIndex})
    ensures c.id == r.nextIndex
    ensures c.actions == Serve(Register(r, sender), c.id, outcomes, closed).actions
    ensures c.registry.nextIndex == r.nextIndex + 1
    ensures forall id :: id != c.id ==> GetUser(c.registry, id) == GetUser(r, id)
    ensures Disconnected(c.actions) ==> GetUser(c.registry, c.id) == None
    ensures !Disconnected(c.actions) ==> GetUser(c.registry, c.id) == Some(sender)
    ensures Disconnected(c.actions) <==> |c.announcements| == 2
    ensures |c.announcements| >= 1 && c.announcements[0].listed == joinOrder
    ensures |c.announcements| == 2 ==> c.announcements[1].listed == leaveOrder && c.id !in leaveOrder
    ensures c.announcements[0] == AddUser(r, sender, joinOrder).announcement
    ensures |c.announcements| == 2 ==> c.announcements[1] == RemoveUser(Register(r, sender), c.id, leaveOrder).announcement
    ensures |c.announcements[0].recipients| == |joinOrder|
    ensures forall i :: 0 <= i < |joinOrder| ==>
              Some(c.announcements[0].recipients[i]) == GetUser(Register(r, sender), joinOrder[i])
    ensures |c.announcements| == 2 ==> |c.announcements[1].recipients| == |leaveOrder|
    ensures |c.announcements| == 2 ==> forall i :: 0 <= i < |leaveOrder| ==>
              Some(c.announcements[1].recipients[i]) == GetUser(r, leaveOrder[i])
  {
    var a := AddUser(r, sender, joinOrder);
    var actions := Serve(a.registry, a.id, outcomes, closed).actions;
    if Disconnected(actions) then
      assert a.registry.users.Keys - {a.id} == r.users.Keys - {r.nextIndex};
      var d := RemoveUser(a.registry, a.id, leaveOrder);
      Connection(a.id, actions, d.registry, [a.announcement, d.announcement])
    else
      Connection(a.id, actions, a.registry, [a.announcement])
  }

  /**
   A connection whose read loop has ended leaves the registry as it found
   it except that one more id has been used up; while it lasts, its
   channel is registered under its id.
   */
  lemma ConnectionLifecycle(r: Registry, sender: ChanId, outcomes: seq<ReadOutcome>, closed: set<ChanId>,
                            joinOrder: seq<nat>, leaveOrder: seq<nat>)
    requires Inv(r)
    requires FitsBuffer(outcomes)
    requires Enumerates(joinOrder, r.users.Keys + {r.nextIndex})
    requires Enumerates(leaveOrder, r.users.Keys - {r.nextIndex})
    ensures var c := Connect(r, sender, outcomes, closed, joinOrder, leaveOrder);
            && Inv(c.registry)
            && c.registry.nextIndex == r.nextIndex + 1
            && (Disconnected(c.actions) ==> c.registry.users == r.users && |c.announcements| == 2)
            && (!Disconnected(c.actions) ==> GetUser(c.registry, c.id) == Some(sender) && |c.announcements| == 1)
  {
    var c := Connect(r, sender, outcomes, closed, joinOrder, leaveOrder);
    if Disconnected(c.actions) {
      RegisterThenDeregister(r, sender);
    }
  }
}

=== FILE: shared.dfy ===
/**
 Reassembly and writing of frames over one connection (src/shared.rs).
 The socket is replaced by the sequence of outcomes its reads would give,
 one outcome per read; each successful read carries exactly one frame.
 */
module Shared {
  import opened Bytes
  import opened Wrappers
  import opened DecimalText
  import opened Parser

  /** The read buffer: one maximal frame, 4 + 1024 + 1 bytes. */
  const BUFFER_SIZE: nat := 1029

  /** The `std::io::ErrorKind`s the reader tells apart. */
  datatype IoErrorKind = WouldBlock | ConnectionReset | BrokenPipe | UnexpectedEof | OtherKind

  /** What one `read` returns: the bytes read (none for a zero-length read), or an I/O error. */
  datatype ReadOutcome = Received(data: seq<byte>) | Failed(kind: IoErrorKind)

  datatype ExtractError = InvalidMessage(parseError: ParseError) | NotReady | IOError(kind: IoErrorKind) | Closed

  /** The result of one `extract_message` call and the reads it left unconsumed. */
  datatype Extraction = Extraction(outcome: Result<Message, ExtractError>, rest: seq<ReadOutcome>)

  /** No read returns more bytes than the buffer holds. */
  predicate FitsBuffer(outcomes: seq<ReadOutcome>) {
    forall i :: 0 <= i < |outcomes| ==> outcomes[i].Received? ==> |outcomes[i].data| <= BUFFER_SIZE
  }

  /** What the reader makes of one read: a parsed frame, end of stream, a bad frame, or an I/O error. */
  datatype ReadStep = Frame(msg: Message) | ZeroRead | BadFrame(parseError: ParseError) | IoFailure(kind: IoErrorKind)

  /** A zero-length read is checked before the bytes are parsed as one frame. */
  function Classify(o: ReadOutcome): ReadStep {
    match o
    case Received(data) =>
      if |data| == 0 then ZeroRead
      else (
        match Parse(data)
        case Ok(m) => Frame(m)
        case Err(e) => BadFrame(e)
      )
    case Failed(kind) => IoFailure(kind)
  }

  function Steps(outcomes: seq<ReadOutcome>): (steps: seq<ReadStep>)
    ensures |steps| == |outcomes|
    ensures forall i :: 0 <= i < |outcomes| ==> steps[i] == Classify(outcomes[i])
  {
    seq(|outcomes|, i requires 0 <= i < |outcomes| => Classify(outcomes[i]))
  }

  /** The error an I/O failure of a read turns into. */
  function ErrorOf(kind: IoErrorKind): (e: ExtractError)
    ensures e == NotReady <==> kind == WouldBlock
    ensures e == Closed <==> kind in {ConnectionReset, BrokenPipe, UnexpectedEof}
    ensures e.IOError? <==> kind == OtherKind
  {
    match kind
    case WouldBlock => NotReady
    case ConnectionReset => Closed
    case BrokenPipe => Closed
    case UnexpectedEof => Closed
    case OtherKind => IOError(kind)
  }

  predicate IsContinuation(step: ReadStep) {
    step.Frame? && step.msg.hasMore
  }

  /** Where one call stops: its result, and the index of the first read it did not consume. */
  datatype Stop = Stop(outcome: Result<Message, ExtractError>, next: nat)

  /**
   The read loop of `extract_message` from read `i` on, with `acc` the
   payload of the frames read so far in this call. When the reads run out
   the socket has nothing more to give, which a non-blocking socket
   reports as `WouldBlock`.
   */
  function ExtractFrom(steps: seq<ReadStep>, i: nat, acc: seq<byte>): (r: Stop)
    requires i <= |steps|
    ensures i < r.next <= |steps| || (i == r.next == |steps| && r.outcome == Err(NotReady))
    ensures r.outcome.Ok? ==> !r.outcome.value.hasMore
    decreases |steps| - i
  {
    if i == |steps| then Stop(Err(NotReady), i)
    else
      match steps[i]
      case Frame(m) =>
        if m.hasMore then ExtractFrom(steps, i + 1, acc + m.content)
        else Stop(Ok(Message(m.peer, acc + m.content, false)), i + 1)
      case ZeroRead => Stop(Err(Closed), i + 1)
      case BadFrame(e) => Stop(Err(InvalidMessage(e)), i + 1)
      case IoFailure(kind) => Stop(Err(ErrorOf(kind)), i + 1)
  }

  /**
   `extract_message`: one call, with a fresh accumulator, returning the
   reads it did not consume. A call that returns a message returns one
   with `has_more` false.
   */
  function Extract(outcomes: seq<ReadOutcome>): (r: Extraction)
    requires FitsBuffer(outcomes)
    ensures |outcomes| > 0 ==> |r.rest| < |outcomes|
    ensures |r.rest| <= |outcomes| && r.rest == outcomes[|outcomes| - |r.rest|..]
    ensures FitsBuffer(r.rest)
    ensures |outcomes| == 0 ==> r.outcome == Err(NotReady)
    ensures r.outcome.Ok? ==> !r.outcome.value.hasMore
  {
    var stop := ExtractFrom(Steps(outcomes), 0, []);
    var rest := outcomes[stop.next..];
    assert forall j :: 0 <= j < |rest| ==> rest[j] == outcomes[stop.next + j];
    Extraction(stop.outcome, rest)
  }

  /** A call that starts at read `i` does not look at the reads before `k <= i`. */
  lemma {:induction false} ExtractFromDrop(steps: seq<ReadStep>, k: nat, i: nat, acc: seq<byte>)
    requires k <= i <= |steps|
    ensures ExtractFrom(steps, i, acc).next >= k
    ensures ExtractFrom(steps[k..], i - k, acc)
            == Stop(ExtractFrom(steps, i, acc).outcome, ExtractFrom(steps, i, acc).next - k)
    decreases |steps| - i
  {
    if i < |steps| {
      assert steps[k..][i - k] == steps[i];
      if steps[i].Frame? && steps[i].msg.hasMore {
        ExtractFromDrop(steps, k, i + 1, acc + steps[i].msg.content);
      }
    }
  }

  /** The steps of the reads from `k` on are the steps from `k` on. */
  lemma StepsDrop(outcomes: seq<ReadOutcome>, k: nat)
    requires k <= |outcomes|
    ensures Steps(outcomes[k..]) == Steps(outcomes)[k..]
  {
    assert forall j :: 0 <= j < |outcomes| - k ==> outcomes[k..][j] == outcomes[k + j];
  }

  /**
   A later `extract_message` call, on the reads an earlier one left, is
   the same call started at the first read left.
   */
  lemma ExtractAt(outcomes: seq<ReadOutcome>, k: nat)
    requires FitsBuffer(outcomes) && k <= |outcomes|
    ensures FitsBuffer(outcomes[k..])
    ensures var stop := ExtractFrom(Steps(outcomes), k, []);
            && Extract(outcomes[k..]).outcome == stop.outcome
            && |Extract(outcomes[k..]).rest| == |outcomes| - stop.next
  {
    assert forall j :: 0 <= j < |outcomes| - k ==> outcomes[k..][j] == outcomes[k + j];
    StepsDrop(outcomes, k);
    ExtractFromDrop(Steps(outcomes), k, k, []);
  }

  /** The payloads of the frames among steps `i` up to `k`, in order. */
  function Payloads(steps: seq<ReadStep>, i: nat, k: nat): seq<byte>
    requires i <= k <= |steps|
    decreases k - i
  {
    if i == k then []
    else (if steps[i].Frame? then steps[i].msg.content else []) + Payloads(steps, i + 1, k)
  }

  /**
   A call consumes every continuation frame it meets, gathering their
   payloads in order: after reads `i` to `k` it is where it would be at
   read `k` with those payloads already gathered.
   */
  lemma {:induction false} ExtractSkipsContinuations(steps: seq<ReadStep>, i: nat, k: nat, acc: seq<byte>)
    requires i <= k <= |steps|
    requires forall j :: i <= j < k ==> IsContinuation(steps[j])
    ensures ExtractFrom(steps, i, acc) == ExtractFrom(steps, k, acc + Payloads(steps, i, k))
    decreases k - i
  {
    if i == k {
      assert acc + [] == acc;
    } else {
      var m := steps[i].msg;
      ExtractSkipsContinuations(steps, i + 1, k, acc + m.content);
      assert acc + m.content + Payloads(steps, i + 1, k) == acc + Payloads(steps, i, k);
    }
  }

  lemma {:induction false} PayloadsSnoc(steps: seq<ReadStep>, i: nat, k: nat)
    requires i <= k < |steps|
    ensures Payloads(steps, i, k + 1)
            == Payloads(steps, i, k) + (if steps[k].Frame? then steps[k].msg.content else [])
    decreases k - i
  {
    if i < k {
      PayloadsSnoc(steps, i + 1, k);
    }
  }

  /**
   The first read that is not a continuation frame ends the call. A
   zero-length read means the peer closed the connection: `Closed`, and
   the chunks gathered so far are dropped. `WouldBlock` gives `NotReady`,
   and the gathered chunks are dropped with the call's local accumulator;
   reset, broken pipe and unexpected end of file give `Closed`; any other
   I/O error is passed on; a frame that does not parse gives its parse
   error. A last frame completes the message: the payloads of all frames
   read, in order, under the id of that last frame.
   */
  lemma ExtractEnds(outcomes: seq<ReadOutcome>, k: nat)
    requires FitsBuffer(outcomes)
    requires k < |outcomes| && forall j :: 0 <= j < k ==> IsContinuation(Classify(outcomes[j]))
    requires !IsContinuation(Classify(outcomes[k]))
    ensures Extract(outcomes).rest == outcomes[k + 1..]
    ensures outcomes[k] == Received([]) ==> Extract(outcomes).outcome == Err(Closed)
    ensures outcomes[k].Failed? ==> Extract(outcomes).outcome == Err(ErrorOf(outcomes[k].kind))
    ensures Classify(outcomes[k]).BadFrame?
            ==> Extract(outcomes).outcome == Err(InvalidMessage(Classify(outcomes[k]).parseError))
    ensures Classify(outcomes[k]).Frame? && !Classify(outcomes[k]).msg.hasMore
            ==> Extract(outcomes).outcome
                == Ok(Message(Classify(outcomes[k]).msg.peer, Payloads(Steps(outcomes), 0, k + 1), false))
  {
    var steps := Steps(outcomes);
    ExtractSkipsContinuations(steps, 0, k, []);
    PayloadsSnoc(steps, 0, k);
    var acc := Payloads(steps, 0, k);
    assert [] + acc == acc;
    assert ExtractFrom(steps, 0, []) == ExtractFrom(steps, k, acc);
  }

  /** The reads that deliver `frames` one per read. */
  function Reads(frames: seq<seq<byte>>): (outcomes: seq<ReadOutcome>)
    ensures |outcomes| == |frames|
    ensures forall i :: 0 <= i < |frames| ==> outcomes[i] == Received(frames[i])
  {
    seq(|frames|, i requires 0 <= i < |frames| => Received(frames[i]))
  }

  /**
   Steps `i` onwards begin with one frame per chunk of `chunks`, all under
   `peer`, flagged as continued on every chunk but the last.
   */
  predicate FramesAt(steps: seq<ReadStep>, i: nat, peer: nat, chunks: seq<seq<byte>>) {
    && i + |chunks| <= |steps|
    && forall j :: 0 <= j < |chunks| ==> steps[i + j] == Frame(Message(peer, chunks[j], j < |chunks| - 1))
  }

  /** Reads that deliver the frames of `Encode(peer, content)` from read `i` on classify as its chunks. */
  lemma EncodedFrameSteps(peer: nat, content: seq<byte>, outcomes: seq<ReadOutcome>, i: nat)
    requires peer < 10000
    requires i + |Encode(peer, content)| <= |outcomes|
    requires forall j :: 0 <= j < |Encode(peer, content)| ==> outcomes[i + j] == Received(Encode(peer, content)[j])
    ensures FramesAt(Steps(outcomes), i, peer, ChunksOf(content))
  {
    var frames := Encode(peer, content);
    forall j | 0 <= j < |frames|
      ensures Steps(outcomes)[i + j] == Frame(Message(peer, ChunksOf(content)[j], j < |frames| - 1))
    {
      EncodeParse(peer, content, j);
      EncodeFrameSize(peer, content, j);
      assert outcomes[i + j] == Received(frames[j]);
    }
  }

  /** Reading the frames of a chunk sequence completes one message holding all the chunks in order. */
  lemma {:induction false} FramesThenExtractFrom(steps: seq<ReadStep>, i: nat, peer: nat, chunks: seq<seq<byte>>, acc: seq<byte>)
    requires |chunks| >= 1 && FramesAt(steps, i, peer, chunks)
    ensures ExtractFrom(steps, i, acc) == Stop(Ok(Message(peer, acc + Flatten(chunks), false)), i + |chunks|)
    decreases |chunks|
  {
    assert steps[i + 0] == Frame(Message(peer, chunks[0], 0 < |chunks| - 1));
    if |chunks| > 1 {
      var rest := chunks[1..];
      assert FramesAt(steps, i + 1, peer, rest) by {
        forall j | 0 <= j < |rest|
          ensures steps[i + 1 + j] == Frame(Message(peer, rest[j], j < |rest| - 1))
        {
          assert steps[i + (j + 1)] == Frame(Message(peer, chunks[j + 1], j + 1 < |chunks| - 1));
        }
      }
      FramesThenExtractFrom(steps, i + 1, peer, rest, acc + chunks[0]);
      assert acc + chunks[0] + Flatten(rest) == acc + Flatten(chunks);
    } else {
      assert chunks[1..] == [];
      assert Flatten(chunks) == chunks[0] + Flatten([]);
      assert acc + Flatten(chunks) == acc + chunks[0];
      assert ExtractFrom(steps, i, acc) == Stop(Ok(Message(peer, acc + chunks[0], false)), i + 1);
    }
  }

  /**
   Reassembly inverts encoding: the frames `Encode` produces for an id
   below 10000 fit the read buffer, and reading them back, one frame per
   read, yields one message with that id and the whole payload; the reads
   after them are left for the next call.
   */
  lemma EncodeThenExtract(peer: nat, content: seq<byte>, more: seq<ReadOutcome>)
    requires peer < 10000
    requires FitsBuffer(more)
    ensures FitsBuffer(Reads(Encode(peer, content)) + more)
    ensures Extract(Reads(Encode(peer, content)) + more) == Extraction(Ok(Message(peer, content, false)), more)
  {
    var frames := Encode(peer, content);
    var outcomes := Reads(frames) + more;
    EncodedReadsFit(peer, content, more);
    EncodedReads(peer, content, more);
    var stop := ExtractFrom(Steps(outcomes), 0, []);
    assert stop == Stop(Ok(Message(peer, content, false)), |frames|) by {
      FramesThenExtractFrom(Steps(outcomes), 0, peer, ChunksOf(content), []);
      assert [] + content == content;
    }
    assert outcomes[|frames|..] == more;
  }

  /** The reads delivering an encoding, followed by reads that fit the buffer, fit the buffer. */
  lemma EncodedReadsFit(peer: nat, content: seq<byte>, more: seq<ReadOutcome>)
    requires peer < 10000
    requires FitsBuffer(more)
    ensures FitsBuffer(Reads(Encode(peer, content)) + more)
  {
    var frames := Encode(peer, content);
    var outcomes := Reads(frames) + more;
    forall j | 0 <= j < |outcomes| && outcomes[j].Received?
      ensures |outcomes[j].data| <= BUFFER_SIZE
    {
      if j < |frames| {
        EncodeFrameSize(peer, content, j);
      } else {
        assert outcomes[j] == more[j - |frames|];
      }
    }
  }

  /** The reads delivering an encoding, followed by any reads, classify as its frames. */
  lemma EncodedReads(peer: nat, content: seq<byte>, more: seq<ReadOutcome>)
    requires peer < 10000
    ensures FramesAt(Steps(Reads(Encode(peer, content)) + more), 0, peer, ChunksOf(content))
  {
    var frames := Encode(peer, content);
    var outcomes := Reads(frames) + more;
    assert forall j :: 0 <= j < |frames| ==> outcomes[0 + j] == Received(frames[j]);
    EncodedFrameSteps(peer, content, outcomes, 0);
  }

  /**
   A `WouldBlock` between the frames of one payload loses the frames
   already read: the call that meets it reports `NotReady` and drops its
   accumulator, and the next call returns only the last frame's chunk as
   if it were the whole message.
   */
  lemma WouldBlockLosesChunks(peer: nat, content: seq<byte>)
    requires peer < 10000
    requires MAX_CHUNK < |content| <= 2 * MAX_CHUNK
    ensures |Encode(peer, content)| == 2
    ensures var frames := Encode(peer, content);
            var outcomes := [Received(frames[0]), Failed(WouldBlock), Received(frames[1])];
            && FitsBuffer(outcomes)
            && Extract(outcomes) == Extraction(Err(NotReady), [Received(frames[1])])
            && Extract([Received(frames[1])]) == Extraction(Ok(Message(peer, content[MAX_CHUNK..], false)), [])
  {
    var frames := Encode(peer, content);
    TwoFrames(peer, content);
    ContinuationThenFailure(Received(frames[0]), WouldBlock, Received(frames[1]));
    LastFrameAlone(Received(frames[1]));
  }

  /** A continuation frame followed by a failed read: the call ends at the failure, dropping the frame. */
  lemma ContinuationThenFailure(first: ReadOutcome, kind: IoErrorKind, next: ReadOutcome)
    requires FitsBuffer([first, next])
    requires IsContinuation(Classify(first))
    ensures FitsBuffer([first, Failed(kind), next])
    ensures Extract([first, Failed(kind), next]) == Extraction(Err(ErrorOf(kind)), [next])
  {
    var outcomes := [first, Failed(kind), next];
    assert FitsBuffer(outcomes) by {
      assert [first, next][0] == first && [first, next][1] == next;
      forall j | 0 <= j < 3 && outcomes[j].Received?
        ensures |outcomes[j].data| <= BUFFER_SIZE
      {
        assert j == 0 || j == 2;
      }
    }
    ExtractEnds(outcomes, 1);
    assert outcomes[2..] == [next];
  }

  /** A single last frame is a whole message on its own. */
  lemma LastFrameAlone(last: ReadOutcome)
    requires FitsBuffer([last])
    requires Classify(last).Frame? && !Classify(last).msg.hasMore
    ensures Extract([last]) == Extraction(Ok(Message(Classify(last).msg.peer, Classify(last).msg.content, false)), [])
  {
    var m := Classify(last).msg;
    ExtractEnds([last], 0);
    assert Payloads(Steps([last]), 0, 1) == m.content + [];
    assert m.content + [] == m.content;
  }

  /** A payload of 1025 to 2048 bytes takes two frames: 1024 bytes flagged '1', then the rest flagged '0'. */
  lemma TwoFrames(peer: nat, content: seq<byte>)
    requires peer < 10000
    requires MAX_CHUNK < |content| <= 2 * MAX_CHUNK
    ensures |Encode(peer, content)| == 2
    ensures 5 <= |Encode(peer, content)[0]| <= BUFFER_SIZE && 5 <= |Encode(peer, content)[1]| <= BUFFER_SIZE
    ensures Parse(Encode(peer, content)[0]) == Ok(Message(peer, content[..MAX_CHUNK], true))
    ensures Parse(Encode(peer, content)[1]) == Ok(Message(peer, content[MAX_CHUNK..], false))
  {
    EncodeFrameSize(peer, content, 0);
    EncodeFrameSize(peer, content, 1);
    EncodeParse(peer, content, 0);
    EncodeParse(peer, content, 1);
    assert ChunksOf(content)[0] == Chunk(content, 0) == content[..MAX_CHUNK];
    assert ChunksOf(content)[1] == Chunk(content, 1) == content[MAX_CHUNK..];
  }

  /**
   `write_message`: the frames are written in order and the first failing
   write ends it, so later frames are never attempted. `ok[i]` says whether
   writing frame `i` would succeed.
   */
  datatype WriteReport = WriteReport(written: seq<seq<byte>>, failed: bool)

  function WriteMessage(frames: seq<seq<byte>>, ok: seq<bool>): (r: WriteReport)
    requires |ok| == |frames|
    ensures r.written <= frames
    ensures r.failed <==> false in ok
    ensures r.failed ==> |r.written| < |frames| && !ok[|r.written|] && forall j :: 0 <= j < |r.written| ==> ok[j]
    ensures !r.failed ==> r.written == frames
    decreases |frames|
  {
    if |frames| == 0 then WriteReport([], false)
    else if !ok[0] then WriteReport([], true)
    else
      var r := WriteMessage(frames[1..], ok[1..]);
      assert ok == [ok[0]] + ok[1..];
      WriteReport([frames[0]] + r.written, r.failed)
  }
}

=== FILE: text.dfy ===
/** `str::split`, `[String]::join` and `str::trim` on ASCII byte strings. */
module Text {
  import opened Bytes

  /** ASCII whitespace: tab, line feed, vertical tab, form feed, carriage return, space. */
  predicate IsSpace(b: byte) {
    (9 <= b <= 13) || b == 32
  }

  predicate AllSpace(s: seq<byte>) {
    forall i :: 0 <= i < |s| ==> IsSpace(s[i])
  }

  predicate Excludes(s: seq<byte>, sep: byte) {
    forall i :: 0 <= i < |s| ==> s[i] != sep
  }

  /** The pieces joined, with `sep` between neighbours; empty for no pieces. */
  function Join(pieces: seq<seq<byte>>, sep: byte): (r: seq<byte>)
    decreases |pieces|
  {
    if |pieces| == 0 then []
    else if |pieces| == 1 then pieces[0]
    else pieces[0] + [sep] + Join(pieces[1..], sep)
  }

  /**
   `s.split(sep)`: the maximal `sep`-free runs of `s`, in order, including
   empty runs; always at least one piece.
   */
  function Split(s: seq<byte>, sep: byte): (r: seq<seq<byte>>)
    ensures |r| >= 1
    ensures Join(r, sep) == s
    ensures forall i :: 0 <= i < |r| ==> Excludes(r[i], sep)
    decreases |s|
  {
    if |s| == 0 then [[]]
    else
      var rest := Split(s[1..], sep);
      if s[0] == sep then
        assert s == [] + [sep] + Join(rest, sep);
        [[]] + rest
      else
        var r := [[s[0]] + rest[0]] + rest[1..];
        assert r[1..] == rest[1..];
        assert Join(r, sep) == s by {
          if |rest| == 1 {
            assert Join(rest, sep) == rest[0];
          } else {
            assert Join(rest, sep) == rest[0] + [sep] + Join(rest[1..], sep);
          }
        }
        r
  }

  /** A piece free of `sep`, followed by `sep`, splits off as one piece. */
  lemma {:induction false} SplitPrefix(p: seq<byte>, t: seq<byte>, sep: byte)
    requires Excludes(p, sep)
    ensures Split(p + [sep] + t, sep) == [p] + Split(t, sep)
    decreases |p|
  {
    var s := p + [sep] + t;
    if |p| == 0 {
      assert s[1..] == t;
    } else {
      assert s[1..] == p[1..] + [sep] + t;
      SplitPrefix(p[1..], t, sep);
      assert [p[0]] + p[1..] == p;
    }
  }

  /** A `sep`-free piece is not split at all. */
  lemma {:induction false} SplitWhole(p: seq<byte>, sep: byte)
    requires Excludes(p, sep)
    ensures Split(p, sep) == [p]
    decreases |p|
  {
    if |p| > 0 {
      SplitWhole(p[1..], sep);
      assert [p[0]] + p[1..] == p;
    }
  }

  /** Splitting inverts joining, for at least one piece and pieces free of `sep`. */
  lemma {:induction false} SplitJoin(pieces: seq<seq<byte>>, sep: byte)
    requires |pieces| >= 1
    requires forall i :: 0 <= i < |pieces| ==> Excludes(pieces[i], sep)
    ensures Split(Join(pieces, sep), sep) == pieces
    decreases |pieces|
  {
    if |pieces| == 1 {
      SplitWhole(pieces[0], sep);
    } else {
      SplitJoin(pieces[1..], sep);
      SplitPrefix(pieces[0], Join(pieces[1..], sep), sep);
      assert [pieces[0]] + pieces[1..] == pieces;
    }
  }

  /** The number of leading whitespace bytes of `s`. */
  function LeadingSpace(s: seq<byte>): (k: nat)
    ensures k <= |s|
    ensures AllSpace(s[..k])
    ensures k < |s| ==> !IsSpace(s[k])
    decreases |s|
  {
    if |s| > 0 && IsSpace(s[0]) then
      var k := 1 + LeadingSpace(s[1..]);
      assert s[..k] == [s[0]] + s[1..][..k - 1];
      k
    else 0
  }

  /** The number of whitespace bytes that end `s[..j]`. */
  function TrailingSpaceIn(s: seq<byte>, j: nat): (k: nat)
    requires j <= |s|
    ensures k <= j
    ensures forall i :: j - k <= i < j ==> IsSpace(s[i])
    ensures k < j ==> !IsSpace(s[j - k - 1])
    decreases j
  {
    if j > 0 && IsSpace(s[j - 1]) then 1 + TrailingSpaceIn(s, j - 1) else 0
  }

  /** The number of trailing whitespace bytes of `s`. */
  function TrailingSpace(s: seq<byte>): (k: nat)
    ensures k <= |s|
    ensures AllSpace(s[|s| - k..])
    ensures k < |s| ==> !IsSpace(s[|s| - k - 1])
  {
    TrailingSpaceIn(s, |s|)
  }

  /**
   `str::trim` on ASCII text: `s` without its leading and trailing
   whitespace. What is left neither starts nor ends with whitespace, and
   only whitespace was removed.
   */
  function Trim(s: seq<byte>): (r: seq<byte>)
    ensures |r| > 0 ==> !IsSpace(r[0]) && !IsSpace(r[|r| - 1])
    ensures exists i, j :: 0 <= i <= j <= |s| && r == s[i..j] && AllSpace(s[..i]) && AllSpace(s[j..])
  {
    var i := LeadingSpace(s);
    var t := s[i..];
    var j := TrailingSpace(t);
    assert t[..|t| - j] == s[i..i + |t| - j];
    assert t[|t| - j..] == s[i + |t| - j..];
    t[..|t| - j]
  }

  /** Trimming the empty text gives the empty text. */
  lemma TrimEmpty()
    ensures Trim([]) == []
  {
  }

  /** Text with no whitespace at either end is left unchanged by trimming. */
  lemma TrimUnchanged(s: seq<byte>)
    requires |s| > 0 ==> !IsSpace(s[0]) && !IsSpace(s[|s| - 1])
    ensures Trim(s) == s
  {
  }
}

=== FILE: wrappers.dfy ===
/** Failure-carrying values shared by every part of the relay model. */
module Wrappers {

  /** An optional value: Rust's `Option`. */
  datatype Option<+T> = None | Some(value: T)

  /** A value or an error: Rust's `Result`. */
  datatype Result<+T, +E> = Ok(value: T) | Err(error: E)
}
